=== FILE: README.md ===
# friends-rss-fetch: the feed ingestion and reconciliation core, in Dafny

`main.py` of friends-rss-fetch runs one scheduled job, `rss_fetch`. The job
reads the active friend links that have an RSS address and fetches each feed
once. For each entry it works out a publication time, then stores the
articles it has not seen before in batches of 100. It keeps a per-source
failure counter that switches a source off after three bad runs in a row, and
writes one fetch-log row per source at the end.

This project models that core as pure functions over an immutable store and
proves properties about them. The modules follow the pieces of the job:

- `Wrappers`: `Option`, for Python's `None` and for nullable columns.
- `Text`: `str.lower()` and the substring test `sub in s`.
- `Calendar`: `datetime(*parts[:6])`, with the range checks the constructor makes (year 1..9999, month 1..12, day within the month including leap years, hour < 24, minute < 60, second < 60).
- `Schema`: rows of `friend_links`, `friend_rss_articles` and `friend_rss_fetch_logs`, and the store `Db`.
- `Feeds`: `fetch_rss_articles`. It classifies the feed version as RSS, Atom or unknown, resolves each entry's time from that type's priority table of `*_parsed` fields, and maps entries to article records.
- `Dedup`: `article_exists` and `save_articles`. Incomplete articles and links already stored for the source are skipped. The rest are staged and flushed in batches of 100. An optional fault lets flush number k raise, so the earlier committed batches persist.
- `Health`: `reset_fetch_failed_count`, `update_fetch_failed_count`, and the post-run loop that increments the counters.
- `Runs`: `get_friend_links`, the per-source `try` block, the fold over sources, `insert_fetch_logs_batch`, and `rss_fetch` as a whole.

`friend_links` is a sequence of rows. Its order stands for whatever order the
`SELECT` of `get_friend_links` returns, which has no `ORDER BY`. Any order can
be represented, because rows are addressed only by `id`. Lemmas that need `id`
to be a primary key say so with `UniqueIds`. Everything outside the process is
a parameter:

- `feedparser.parse`'s result or exception, per source;
- a failing flush inside `save_articles`;
- a failing counter reset.

All of these come in through `env: Source -> SourceInput`.

Two behaviours of the code deserve mention. First, `article_exists` queries
committed rows only (`main.py:155`). Rows staged in the current batch of 100
are invisible to it. A feed that lists the same new link twice within the
same batch of 100 therefore stores it twice, and
`Dedup.DuplicateLinkInOneBatchStoredTwice` exhibits the case. Second, a
failing source's id is only collected during the source loop. The counters
are incremented after the loop ends (`main.py:321-332`), and the model does
the same.

## Model

| member | source | states |
|---|---|---|
| Text.HasInfixOccurs | main.py:67-69 | the left-to-right substring scan answers true exactly when the substring occurs at some position |
| Text.ToLower | main.py:67-69 | the result has the input's length and each character lower-cased in place (ASCII letters only, see Left out) |
| Feeds.Classify | main.py:64-70 | the type is RSS iff the lower-cased version contains "rss", Atom iff it contains "atom" but not "rss", and unknown otherwise, including for a missing version |
| Feeds.ClassifyExamples | main.py:66-70 | "rss20" and "RSS-ATOM" are RSS (so "rss" is searched for first), and an empty or missing version is unknown |
| Feeds.ClassifyAtomExample | main.py:69-70 | "atom10" is classified as Atom |
| Feeds.Candidates | main.py:82-104 | each feed type's priority table, also used by the raw-text fallback (main.py:117-122), lists no field twice and always includes published; RSS never reads updated, created or modified, and Atom never reads pubDate |
| Feeds.UnknownTriesEveryField | main.py:98-104 | a feed of unknown type tries every time field |
| Calendar.FromParts | main.py:110 | a constructed date-time is valid, needs at least three components, and carries the first six components, with missing hour, minute and second taken as 0 |
| Calendar.FromPartsRoundTrip | main.py:110 | every valid date-time is rebuilt from its own components followed by any trailing tuple items |
| Calendar.FromPartsComplete | main.py:110 | construction succeeds whenever three or more components match a valid date-time |
| Feeds.FirstPassNone | main.py:106-113 | the first pass finds nothing iff no candidate field yields a date-time |
| Feeds.FirstPassPicksFirstHit | main.py:106-113 | the first pass returns the value of the first candidate that yields, skipping absent, empty and invalid tuples before it |
| Feeds.RawPassNeverRescues | main.py:115-134 | when the first pass finds nothing, the raw-text fallback finds nothing either, because it re-reads the same parsed tuples |
| Feeds.ResolveTime | main.py:79-134 | the resolved time is None iff no candidate of the type's table yields, and otherwise it is the first candidate's value |
| Feeds.ResolveIsFirstPass | main.py:79-134 | the whole resolution, fallback included, equals the first pass over the priority table |
| Feeds.ResolveReadsOnlyCandidates | main.py:81-113 | two entries that agree on the fields of the type's table resolve to the same time: other fields are never read |
| Feeds.RssPubDateWins | main.py:82-87 | in an RSS feed a usable pubDate is chosen over published |
| Feeds.RssSkipsInvalidPubDate | main.py:106-113 | a pubDate tuple with month 13 is skipped and published is used |
| Feeds.AtomPrefersUpdatedUnknownPrefersPublished | main.py:88-104 | an Atom feed takes a usable updated first; a feed of unknown type takes a usable published first |
| Feeds.FetchArticles | main.py:60-142 | one record per entry in order; title and link default to the empty string and are kept even when empty; the time is the one resolved under the feed's classified type |
| Dedup.Exists | main.py:144-148 | the existence query is true exactly when some committed row of the same source carries the link |
| Dedup.ExistsAppend | main.py:144-148 | the query over a store grown by more rows finds a link iff the old rows or the new rows hold it for the source |
| Dedup.SaveArticles | main.py:150-180 | the store grows by exactly the committed batches. Without a fault these are the rows the counting description selects, cut into batches of 100. When a flush raises, the committed rows are a prefix of that selection in full batches, and the error is the fault's message. A call that raises nothing made no flush the fault names, so a fault on any of the flushes the call makes raises |
| Dedup.FlushFaultRaises | main.py:163-180 | when the fault names one of the batches the selected rows call for, the call raises with the fault's message, since neither flush has a handler |
| Dedup.SaveFromCommits | main.py:152-180 | every committed batch has 1 to 100 rows, all but the last exactly 100, and a raised flush leaves only full batches committed |
| Dedup.SaveFromSelects | main.py:152-180 | the buffered loop commits exactly the rows of the counting description, or a prefix of them after a fault |
| Dedup.SelectSound | main.py:150-162 | every inserted row comes from the input, belongs to the source, has non-empty title and link, and carries a link the source did not have before the call |
| Dedup.SelectCovers | main.py:152-162 | after a call that raises nothing, every storable article's link is present for the source |
| Dedup.SelectDistinct | main.py:152-162 | with pairwise distinct links, the selection is exactly the storable articles whose link the store lacks, in input order |
| Dedup.SaveDistinctLinks | main.py:150-162 | with pairwise distinct links, a call that raises nothing inserts exactly the storable, unseen articles in input order |
| Dedup.DuplicateLinkInOneBatchStoredTwice | main.py:155-171 | a new link listed twice in one batch is inserted twice, because staged rows are invisible to the existence check |
| Dedup.SaveNothingNew | main.py:152-162 | when every storable link is already stored, nothing is staged or flushed |
| Dedup.SaveTwiceInsertsNothing | main.py:150-162 | saving the same list again after a successful call inserts nothing and commits no batch |
| Dedup.ChunksRoundTrip | main.py:163-180 | batching loses and reorders nothing, every batch but the last holds 100 rows, and there are ceil(n/100) batches |
| Dedup.ChunksOfBatched | main.py:163-180 | batches of that shape are recovered by cutting their concatenation into chunks of 100 |
| Dedup.ChunkBoundaries | main.py:163-180 | 0 rows give no flush, 100 give one flush, and 101 give a flush of 100 then one of 1 |
| Health.ResetFailedCount | main.py:196-201 | the row with the id gets counter 0; its id, address and active flag and every other row are unchanged |
| Health.UpdateFailedCount | main.py:182-194 | the row with the id gets the new counter and is deactivated exactly when the counter reaches 3; every other row is unchanged |
| Health.StoredCountAt | main.py:324-325 | with unique ids, the COALESCE read returns the row's counter, 0 for NULL |
| Health.BumpRow | main.py:324-327 | one increment turns the row with the id into its bumped form (counter plus one, deactivated at 3) and leaves the other rows alone |
| Health.StoredCountFrame | main.py:321-327 | incrementing one source leaves every other source's stored counter unchanged |
| Health.ApplyIncrements | main.py:321-332 | the post-run loop keeps every row's id |
| Health.ApplyIncrementsEffect | main.py:321-330 | with distinct ids listed, each listed row is incremented exactly once from its counter before the loop, and every other row is untouched |
| Health.ApplyIncrementsDeactivates | main.py:321-330 | the deactivated list is exactly the listed sources whose new counter reaches 3, in list order |
| Health.BumpBoundary | main.py:185-193 | a counter of 2 becomes 3 and inactive, 1 becomes 2 and stays active, and NULL becomes 1 |
| Runs.ActiveSources | main.py:49-58 | every source returned comes from a row with a non-empty address that is active, and every such row's source is returned |
| Runs.ActiveSourcesDistinct | main.py:49-58 | distinct table ids give a source list without repeated ids |
| Runs.ProcessedIffEligible | main.py:52-56 | a row is processed exactly when its address is non-null and non-empty and it is active |
| Runs.ProcessSource | main.py:264-317 | a parse exception gives Fail with its message and changes nothing. Zero entries give ZeroArticles with the store untouched, so nothing is saved. A non-empty feed leaves exactly the articles `save_articles` commits for it; a raising flush gives Fail with the flush's message, then a raising reset gives Fail with its message, and otherwise the outcome is Success with the number of entries fetched, whether or not any was new. Only Success resets the counter |
| Runs.FlushFaultFailsSource | main.py:287-317 | a flush fault on one of the batches a non-empty feed's new articles need makes the source fail with the fault's message, and its counter is not reset |
| Runs.RunSources | main.py:262-317 | one log row per source in order with its id and address and no HTTP status; the three counts are the numbers of each status and sum to the number of sources; failed_links is exactly the zero-or-fail sources in order; zero_articles_links is exactly the zero sources |
| Runs.FailedIdsDistinct | main.py:262-317 | with one log row per distinct source, no source is both a success and a failure and none is listed for an increment twice |
| Runs.RunSourcesLinks | main.py:262-317 | during the loop the only change to friend_links is the reset of each successful source's counter |
| Runs.RunLogIds | main.py:262-317 | the logged ids are the active sources' ids, each once |
| Runs.InsertFetchLogsBatch | main.py:220-240 | the rows are appended in order and an empty buffer writes nothing |
| Runs.Run | main.py:243-335 | the run logs one row per active source in order after the existing rows; the counts sum to the number of active sources and match the logged statuses; failed and zero lists match the log; articles are only added |
| Runs.RunLinksEffect | main.py:262-332 | after a run an ineligible row is untouched, a successful source's counter is 0, and every other eligible row is incremented once and deactivated at 3 |
| Runs.RunDeactivations | main.py:321-332 | the reported deactivated sources are the failed ones whose counter before the run was 2 or more, in processing order |
| Runs.DeactivationBoundary | main.py:321-330 | over a whole run, an active source at 2 that does not succeed ends at 3 and inactive; one at 1 ends at 2 and active |
| Runs.StoreBeforeStep | main.py:262-317 | the store after source k is the one source k's own step leaves when run against the store the earlier sources left |
| Runs.RunSourcesTrace | main.py:262-317 | the loop's log row k records the outcome of processing source k against the store sources 0..k-1 left, and the loop ends with the store the last source leaves |
| Runs.RunSourcesStatuses | main.py:264-317 | a source's log row follows from its own input: a parse exception is fail with the exception text, an empty feed is zero_articles, success implies a non-empty feed and reports its entry count, and a non-empty feed whose save and reset raise nothing is success |
| Runs.RunSourcesArticlesStep | main.py:265-291 | a non-empty feed adds what `save_articles` commits against the store the earlier sources left; a parse exception or an empty feed adds nothing |
| Runs.RunArticles | main.py:243-335 | a run's articles are those the source loop leaves; the log insert and the counter updates add none |
| Runs.RunStatuses | main.py:262-335 | the run's log row for active source k, after the existing rows, has the status and message its own input decides, as in the loop |
| Runs.LoggedSuccess | main.py:262-317 | with one log row per source, a source is among the successes exactly when its own row says success |
| Runs.RunRowOutcome | main.py:262-332 | an eligible row whose feed raises or is empty ends the run incremented (inactive at 3); one whose non-empty feed saves and resets without raising ends with counter 0, still active |
| Runs.OneSuccessOneFailure | main.py:262-335 | with two sources, where the first saves its entries and the second raises: the first source's articles are saved, two log rows are written in table order, and the counts are 1, 1, 0 |
| Runs.OneSuccessOneFailureLinks | main.py:291-332 | in that run the first source's counter is reset and the second is incremented |
| Runs.EndToEndScenario | main.py:243-335 | a concrete run: three new articles of source 1 are stored, source 1's counter stays 0 and source 2's becomes 1 with both still active, and the two log rows and the counts 1, 1, 0 are exact |

## Left out

- Scheduler registration, `.env` loading and logger setup (`main.py:1-47`): plumbing, with no decisions.
- The pymysql connection, cursors, commits and `conn.close()`: replaced by the immutable `Db` value. A commit is the point where rows join it.
- `feedparser.parse`: its networking and wire parsing are replaced by an input value per source, either a parsed feed or the exception's message.
- `datetime.now()` and `fetched_at`: wall-clock values are not modelled.
- Log and message texts: modelled as tags (`FetchedArticles(n)`, `NoArticlesFound`, `ErrorText(msg)`). An exception's `str(e)` is an opaque string supplied with the input.
- The single-row `insert_fetch_log` (`main.py:203-218`): the job never calls it.
- The summary printing (`main.py:338-357`): modelled only as the counts and lists it reports (`Summary`).
- `async` and concurrency: one run is sequential, and overlapping runs are not modelled.
- Exceptions after the source loop: a failing counter read or update, or a failing log batch insert, propagate out of `rss_fetch` and end the run. Only failures inside the per-source `try` are modelled: the parse, a flush, and the counter reset.
- Exceptions raised by `article_exists` itself: only flush failures are modelled inside `save_articles`.
- Parsed time tuples hold integers. A non-integer component, which would make `datetime` raise TypeError, is not representable.
- `http_status` is always NULL in the code. The model keeps the column and proves it is `None`.
- Text.ToLower (via Text.LowerChar): lower-cases ASCII letters only. No other character lower-cases to a letter of "rss" or "atom", so both substring tests answer as Python's full Unicode `lower()` would.
- Health.ApplyIncrements: requires every listed id to have a row. The code would raise on `fetchone()[0]` for a missing row. `Runs.FailedLinksHaveRows` proves that the ids `rss_fetch` passes always have one.
- Dedup.Exists: link equality is exact, as under a binary collation. MySQL's default utf8mb4 collations compare case-insensitively, and the older PAD SPACE ones also ignore trailing spaces. Under those, `article_exists` would treat a case variant of a stored link as already stored, and `SelectSound`, `SelectDistinct` and `SaveDistinctLinks` would describe inserts the program skips. The table definitions are not part of this model. `Runs.Eligible`'s empty-address test (`rss_url != ''`) is exact in the same way.
- Dedup.DuplicateLinkInOneBatchStoredTwice: assumes `friend_rss_articles` has no UNIQUE key on `(friend_id, link)`; the table definition is not part of this model. With such a key the flush would raise, and the source would be logged as a failure.
- Health.StoredCount: reads the first row with the id, which is the row the `SELECT` returns because `id` is the primary key.

=== FILE: calendar.dfy ===
/** Construction of a calendar date-time from the components of a parsed time
    tuple, with the range checks Python's `datetime(...)` constructor makes. */
module Calendar {
  import opened Wrappers

  datatype DateTime = DateTime(year: int, month: int, day: int, hour: int, minute: int, second: int)

  const MinYear: int := 1
  const MaxYear: int := 9999

  /** Proleptic Gregorian leap years. */
  predicate IsLeapYear(y: int) {
    y % 4 == 0 && (y % 100 != 0 || y % 400 == 0)
  }

  function DaysInMonth(y: int, m: int): int
    requires 1 <= m <= 12
  {
    if m == 2 then (if IsLeapYear(y) then 29 else 28)
    else if m == 4 || m == 6 || m == 9 || m == 11 then 30
    else 31
  }

  /** The values `datetime` accepts without raising ValueError. */
  predicate Valid(d: DateTime) {
    && MinYear <= d.year <= MaxYear
    && 1 <= d.month <= 12
    && 1 <= d.day <= DaysInMonth(d.year, d.month)
    && 0 <= d.hour < 24
    && 0 <= d.minute < 60
    && 0 <= d.second < 60
  }

  /** The six positional components of a date-time. */
  function Fields(d: DateTime): seq<int> {
    [d.year, d.month, d.day, d.hour, d.minute, d.second]
  }

  /** Component `i` of `parts[:6]` passed positionally; a missing hour, minute
      or second takes the constructor's default 0. */
  function Part(parts: seq<int>, i: nat): int {
    if i < |parts| then parts[i] else 0
  }

  /** `datetime(*parts[:6])`: None stands for the exception the call raises,
      a TypeError with fewer than three components or a ValueError for a
      component out of range. */
  function FromParts(parts: seq<int>): (r: Option<DateTime>)
    ensures r.Some? ==> |parts| >= 3 && Valid(r.value)
    ensures r.Some? ==> forall i :: 0 <= i < 6 ==> Fields(r.value)[i] == Part(parts, i)
  {
    if |parts| < 3 then None
    else
      var d := DateTime(parts[0], parts[1], parts[2], Part(parts, 3), Part(parts, 4), Part(parts, 5));
      if Valid(d) then Some(d) else None
  }

  /** Every valid date-time is built back from its own six components, and from
      any longer tuple starting with them (a `time.struct_time` has nine). */
  lemma FromPartsRoundTrip(d: DateTime, extra: seq<int>)
    requires Valid(d)
    ensures FromParts(Fields(d) + extra) == Some(d)
  {
  }

  /** Whenever three or more components agree with a valid date-time on the
      first six positions, the construction succeeds with that date-time. */
  lemma FromPartsComplete(parts: seq<int>, d: DateTime)
    requires |parts| >= 3 && Valid(d)
    requires forall i :: 0 <= i < 6 ==> Fields(d)[i] == Part(parts, i)
    ensures FromParts(parts) == Some(d)
  {
    assert Fields(d)[0] == Part(parts, 0) && Fields(d)[1] == Part(parts, 1) && Fields(d)[2] == Part(parts, 2);
    assert Fields(d)[3] == Part(parts, 3) && Fields(d)[4] == Part(parts, 4) && Fields(d)[5] == Part(parts, 5);
  }
}

=== FILE: dedup.dfy ===
/** `save_articles`: skip incomplete articles and links already stored for the
    source, stage the rest, and write them in batches of 100. The existence
    check reads the store, which holds the batches committed so far but not
    the rows still staged. */
module Dedup {
  import opened Wrappers
  import opened Feeds
  import opened Schema

  const BatchSize: nat := 100

  /** Articles with an empty title or link are never stored. */
  predicate Storable(a: Article) {
    a.title != "" && a.link != ""
  }

  function RowOf(fid: FriendId, a: Article): ArticleRow {
    ArticleRow(fid, a.title, a.link, a.createdAt)
  }

  function RowsOf(fid: FriendId, arts: seq<Article>): seq<ArticleRow>
    decreases |arts|
  {
    if |arts| == 0 then [] else [RowOf(fid, arts[0])] + RowsOf(fid, arts[1..])
  }

  /** `article_exists`: the `SELECT ... LIMIT 1` answered by a scan of the
      committed rows; it is true exactly when some row of the source carries
      this link. */
  function Exists(rows: seq<ArticleRow>, fid: FriendId, link: string): (r: bool)
    ensures r <==> exists i :: 0 <= i < |rows| && rows[i].friendId == fid && rows[i].link == link
    decreases |rows|
  {
    if |rows| == 0 then false
    else if rows[0].friendId == fid && rows[0].link == link then true
    else
      var found := Exists(rows[1..], fid, link);
      assert forall i :: 1 <= i < |rows| ==> rows[i] == rows[1..][i - 1];
      found
  }

  function Concat(batches: seq<seq<ArticleRow>>): seq<ArticleRow>
    decreases |batches|
  {
    if |batches| == 0 then [] else batches[0] + Concat(batches[1..])
  }

  /** An optional store failure: flush number `batch` (counting from 0) raises. */
  datatype FlushFault = NoFlushFault | FlushFails(batch: nat, message: string)

  predicate FailsAt(fault: FlushFault, n: nat) {
    fault.FlushFails? && fault.batch == n
  }

  /** The store after the call, the batches committed in order, and the error
      message when a flush raised. */
  datatype SaveResult = SaveResult(store: seq<ArticleRow>, batches: seq<seq<ArticleRow>>, error: Option<string>)

  /** The loop of save_articles, from a point where `staged` rows wait and
      `batches` have been committed. */
  function SaveFrom(
    store: seq<ArticleRow>, fid: FriendId, arts: seq<Article>,
    staged: seq<ArticleRow>, batches: seq<seq<ArticleRow>>, fault: FlushFault): SaveResult
    requires |staged| < BatchSize
    decreases |arts|
  {
    if |arts| == 0 then
      if |staged| == 0 then SaveResult(store, batches, None)
      else if FailsAt(fault, |batches|) then SaveResult(store, batches, Some(fault.message))
      else SaveResult(store + staged, batches + [staged], None)
    else
      var a := arts[0];
      if !Storable(a) || Exists(store, fid, a.link) then
        SaveFrom(store, fid, arts[1..], staged, batches, fault)
      else
        var staged' := staged + [RowOf(fid, a)];
        if |staged'| < BatchSize then SaveFrom(store, fid, arts[1..], staged', batches, fault)
        else if FailsAt(fault, |batches|) then SaveResult(store, batches, Some(fault.message))
        else SaveFrom(store + staged', fid, arts[1..], [], batches + [staged'], fault)
  }

  /** The rows the call inserts, described by counting instead of buffering:
      an article is kept when it is storable and its link is absent from the
      store plus the whole batches among the `chosen` rows kept before it. */
  function Select(store: seq<ArticleRow>, fid: FriendId, arts: seq<Article>, chosen: seq<ArticleRow>): seq<ArticleRow>
    decreases |arts|
  {
    if |arts| == 0 then chosen
    else
      var a := arts[0];
      var committed := store + chosen[..|chosen| / BatchSize * BatchSize];
      if Storable(a) && !Exists(committed, fid, a.link) then Select(store, fid, arts[1..], chosen + [RowOf(fid, a)])
      else Select(store, fid, arts[1..], chosen)
  }

  /** Splits rows into consecutive batches of 100, the last one possibly shorter. */
  function Chunks(rows: seq<ArticleRow>): seq<seq<ArticleRow>>
    decreases |rows|
  {
    if |rows| == 0 then []
    else if |rows| <= BatchSize then [rows]
    else [rows[..BatchSize]] + Chunks(rows[BatchSize..])
  }

  /** Every batch holds 1..100 rows, and all but the last exactly 100. */
  ghost predicate Batched(batches: seq<seq<ArticleRow>>) {
    forall i :: 0 <= i < |batches| ==>
      && 0 < |batches[i]| <= BatchSize
      && (i < |batches| - 1 ==> |batches[i]| == BatchSize)
  }

  lemma {:induction false} ConcatAppend(batches: seq<seq<ArticleRow>>, b: seq<ArticleRow>)
    ensures Concat(batches + [b]) == Concat(batches) + b
    decreases |batches|
  {
    if |batches| > 0 {
      assert (batches + [b])[1..] == batches[1..] + [b];
      ConcatAppend(batches[1..], b);
    }
  }

  lemma {:induction false} ConcatFull(batches: seq<seq<ArticleRow>>)
    requires forall i :: 0 <= i < |batches| ==> |batches[i]| == BatchSize
    ensures |Concat(batches)| == BatchSize * |batches|
    decreases |batches|
  {
    if |batches| > 0 {
      ConcatFull(batches[1..]);
    }
  }

  lemma ExistsAppend(a: seq<ArticleRow>, b: seq<ArticleRow>, fid: FriendId, link: string)
    ensures Exists(a + b, fid, link) <==> Exists(a, fid, link) || Exists(b, fid, link)
  {
    if Exists(a + b, fid, link) {
      var i :| 0 <= i < |a + b| && (a + b)[i].friendId == fid && (a + b)[i].link == link;
      if i >= |a| {
        assert b[i - |a|] == (a + b)[i];
      }
    }
    if Exists(a, fid, link) {
      var i :| 0 <= i < |a| && a[i].friendId == fid && a[i].link == link;
      assert (a + b)[i] == a[i];
    }
    if Exists(b, fid, link) {
      var i :| 0 <= i < |b| && b[i].friendId == fid && b[i].link == link;
      assert (a + b)[|a| + i] == b[i];
    }
  }

  lemma ExistsPrefix(a: seq<ArticleRow>, b: seq<ArticleRow>, fid: FriendId, link: string)
    requires a <= b
    requires Exists(a, fid, link)
    ensures Exists(b, fid, link)
  {
    var i :| 0 <= i < |a| && a[i].friendId == fid && a[i].link == link;
    assert b[i] == a[i];
  }

  lemma DivBatch(n: nat, s: nat)
    requires s < BatchSize
    ensures (BatchSize * n + s) / BatchSize * BatchSize == BatchSize * n
  {
  }

  lemma {:induction false} SelectExtends(store: seq<ArticleRow>, fid: FriendId, arts: seq<Article>, chosen: seq<ArticleRow>)
    ensures chosen <= Select(store, fid, arts, chosen)
    decreases |arts|
  {
    if |arts| > 0 {
      var a := arts[0];
      var committed := store + chosen[..|chosen| / BatchSize * BatchSize];
      if Storable(a) && !Exists(committed, fid, a.link) {
        SelectExtends(store, fid, arts[1..], chosen + [RowOf(fid, a)]);
      } else {
        SelectExtends(store, fid, arts[1..], chosen);
      }
    }
  }

  /** The loop keeps its committed batches in the store and keeps them in
      shape; a raised flush leaves only full batches behind. */
  lemma {:induction false} SaveFromCommits(
    store0: seq<ArticleRow>, store: seq<ArticleRow>, fid: FriendId, arts: seq<Article>,
    staged: seq<ArticleRow>, batches: seq<seq<ArticleRow>>, fault: FlushFault)
    requires |staged| < BatchSize
    requires store == store0 + Concat(batches)
    requires forall i :: 0 <= i < |batches| ==> |batches[i]| == BatchSize
    ensures SaveFrom(store, fid, arts, staged, batches, fault).store
         == store0 + Concat(SaveFrom(store, fid, arts, staged, batches, fault).batches)
    ensures Batched(SaveFrom(store, fid, arts, staged, batches, fault).batches)
    ensures SaveFrom(store, fid, arts, staged, batches, fault).error.Some? ==>
      var r := SaveFrom(store, fid, arts, staged, batches, fault);
      && FailsAt(fault, |r.batches|) && r.error == Some(fault.message)
      && forall i :: 0 <= i < |r.batches| ==> |r.batches[i]| == BatchSize
    decreases |arts|
  {
    if |arts| == 0 {
      if |staged| > 0 && !FailsAt(fault, |batches|) {
        ConcatAppend(batches, staged);
      }
    } else {
      var a := arts[0];
      if !Storable(a) || Exists(store, fid, a.link) {
        SaveFromCommits(store0, store, fid, arts[1..], staged, batches, fault);
      } else {
        var staged' := staged + [RowOf(fid, a)];
        if |staged'| < BatchSize {
          SaveFromCommits(store0, store, fid, arts[1..], staged', batches, fault);
        } else if !FailsAt(fault, |batches|) {
          ConcatAppend(batches, staged');
          SaveFromCommits(store0, store + staged', fid, arts[1..], [], batches + [staged'], fault);
        }
      }
    }
  }

  /** The rows the loop commits are exactly those the counting description
      selects; after a raised flush they are a prefix of them. */
  lemma {:induction false} SaveFromSelects(
    store0: seq<ArticleRow>, store: seq<ArticleRow>, fid: FriendId, arts: seq<Article>,
    staged: seq<ArticleRow>, batches: seq<seq<ArticleRow>>, fault: FlushFault)
    requires |staged| < BatchSize
    requires store == store0 + Concat(batches)
    requires forall i :: 0 <= i < |batches| ==> |batches[i]| == BatchSize
    ensures SaveFrom(store, fid, arts, staged, batches, fault).error.None? ==>
      Concat(SaveFrom(store, fid, arts, staged, batches, fault).batches)
        == Select(store0, fid, arts, Concat(batches) + staged)
    ensures SaveFrom(store, fid, arts, staged, batches, fault).error.Some? ==>
      Concat(SaveFrom(store, fid, arts, staged, batches, fault).batches)
        <= Select(store0, fid, arts, Concat(batches) + staged)
    decreases |arts|
  {
    var chosen := Concat(batches) + staged;
    ConcatFull(batches);
    DivBatch(|batches|, |staged|);
    assert chosen[..|chosen| / BatchSize * BatchSize] == Concat(batches);
    if |arts| == 0 {
      if |staged| > 0 && !FailsAt(fault, |batches|) {
        ConcatAppend(batches, staged);
      }
    } else {
      var a := arts[0];
      if !Storable(a) || Exists(store, fid, a.link) {
        SaveFromSelects(store0, store, fid, arts[1..], staged, batches, fault);
      } else {
        var staged' := staged + [RowOf(fid, a)];
        assert chosen + [RowOf(fid, a)] == Concat(batches) + staged';
        if |staged'| < BatchSize {
          SaveFromSelects(store0, store, fid, arts[1..], staged', batches, fault);
        } else if FailsAt(fault, |batches|) {
          SelectExtends(store0, fid, arts[1..], chosen + [RowOf(fid, a)]);
        } else {
          ConcatAppend(batches, staged');
          assert Concat(batches + [staged']) + [] == Concat(batches) + staged';
          SaveFromSelects(store0, store + staged', fid, arts[1..], [], batches + [staged'], fault);
        }
      }
    }
  }

  lemma {:induction false} ChunksOfBatched(batches: seq<seq<ArticleRow>>)
    requires Batched(batches)
    ensures Chunks(Concat(batches)) == batches
    decreases |batches|
  {
    if |batches| == 1 {
      assert batches[1..] == [] && batches == [batches[0]];
      assert Concat(batches) == batches[0] + Concat(batches[1..]) == batches[0];
    } else if |batches| > 1 {
      ChunksOfBatched(batches[1..]);
      assert |Concat(batches[1..])| >= |batches[1]| > 0 by {
        assert Concat(batches[1..]) == batches[1] + Concat(batches[2..]);
      }
      var c := Concat(batches);
      assert c == batches[0] + Concat(batches[1..]);
      assert c[..BatchSize] == batches[0];
      assert c[BatchSize..] == Concat(batches[1..]);
    }
  }

  /** A call that raises nothing made no flush the fault names: the flushes
      have no handler, so a fault on any of them propagates. */
  lemma {:induction false} SaveFromRaisesOnFault(
    store: seq<ArticleRow>, fid: FriendId, arts: seq<Article>,
    staged: seq<ArticleRow>, batches: seq<seq<ArticleRow>>, fault: FlushFault)
    requires |staged| < BatchSize
    requires forall k :: 0 <= k < |batches| ==> !FailsAt(fault, k)
    ensures SaveFrom(store, fid, arts, staged, batches, fault).error.None? ==>
      var r := SaveFrom(store, fid, arts, staged, batches, fault);
      forall k :: 0 <= k < |r.batches| ==> !FailsAt(fault, k)
    decreases |arts|
  {
    if |arts| > 0 {
      var a := arts[0];
      if !Storable(a) || Exists(store, fid, a.link) {
        SaveFromRaisesOnFault(store, fid, arts[1..], staged, batches, fault);
      } else {
        var staged' := staged + [RowOf(fid, a)];
        if |staged'| < BatchSize {
          SaveFromRaisesOnFault(store, fid, arts[1..], staged', batches, fault);
        } else if !FailsAt(fault, |batches|) {
          SaveFromRaisesOnFault(store + staged', fid, arts[1..], [], batches + [staged'], fault);
        }
      }
    }
  }

  /** `save_articles(conn, friend_id, articles)`. */
  function SaveArticles(store: seq<ArticleRow>, fid: FriendId, arts: seq<Article>, fault: FlushFault): (r: SaveResult)
    ensures r.store == store + Concat(r.batches)
    ensures r.error.None? ==> Concat(r.batches) == Select(store, fid, arts, [])
    ensures r.error.None? ==> r.batches == Chunks(Concat(r.batches))
    ensures r.error.Some? ==> Concat(r.batches) <= Select(store, fid, arts, [])
    ensures r.error.Some? ==>
      && FailsAt(fault, |r.batches|) && r.error == Some(fault.message)
      && forall i :: 0 <= i < |r.batches| ==> |r.batches[i]| == BatchSize
    ensures r.error.None? ==> forall k :: 0 <= k < |r.batches| ==> !FailsAt(fault, k)
  {
    var r := SaveFrom(store, fid, arts, [], [], fault);
    SaveFromCommits(store, store, fid, arts, [], [], fault);
    assert r.error.None? ==> Concat(r.batches) == Select(store, fid, arts, []) by {
      SaveFromSelects(store, store, fid, arts, [], [], fault);
    }
    assert r.error.Some? ==> Concat(r.batches) <= Select(store, fid, arts, []) by {
      SaveFromSelects(store, store, fid, arts, [], [], fault);
    }
    ChunksOfBatched(r.batches);
    assert r.error.None? ==> forall k :: 0 <= k < |r.batches| ==> !FailsAt(fault, k) by {
      SaveFromRaisesOnFault(store, fid, arts, [], [], fault);
    }
    r
  }

  /** A fault on one of the flushes the selected rows call for makes the
      call raise with the fault's message. */
  lemma FlushFaultRaises(store: seq<ArticleRow>, fid: FriendId, arts: seq<Article>, fault: FlushFault)
    requires fault.FlushFails? && fault.batch < |Chunks(Select(store, fid, arts, []))|
    ensures SaveArticles(store, fid, arts, fault).error == Some(fault.message)
  {
    var r := SaveArticles(store, fid, arts, fault);
    if r.error.None? {
      assert FailsAt(fault, fault.batch);
      assert false;
    }
  }

  /** Batching loses and reorders nothing, and makes ceil(n / 100) batches. */
  lemma {:induction false} ChunksRoundTrip(rows: seq<ArticleRow>)
    ensures Concat(Chunks(rows)) == rows
    ensures Batched(Chunks(rows))
    ensures |Chunks(rows)| == (|rows| + BatchSize - 1) / BatchSize
    decreases |rows|
  {
    if 0 < |rows| <= BatchSize {
      assert [rows][1..] == [];
    } else if |rows| > BatchSize {
      var rest := rows[BatchSize..];
      ChunksRoundTrip(rest);
      assert Chunks(rows) == [rows[..BatchSize]] + Chunks(rest);
      assert (Chunks(rows))[1..] == Chunks(rest);
      assert rows == rows[..BatchSize] + rest;
    }
  }

  /** 0 rows give no flush, 100 give one flush, 101 give 100 and then 1. */
  lemma ChunkBoundaries(rows: seq<ArticleRow>)
    ensures |rows| == 0 ==> Chunks(rows) == []
    ensures |rows| == 100 ==> Chunks(rows) == [rows]
    ensures |rows| == 101 ==> Chunks(rows) == [rows[..100], rows[100..]]
  {
    if |rows| == 101 {
      assert Chunks(rows[100..]) == [rows[100..]];
    }
  }

  /** Every row a call adds comes from the input, is complete, belongs to the
      source, and carries a link the source did not have before the call. */
  lemma {:induction false} SelectSound(store: seq<ArticleRow>, fid: FriendId, arts: seq<Article>, chosen: seq<ArticleRow>)
    ensures |chosen| <= |Select(store, fid, arts, chosen)|
    ensures forall i :: |chosen| <= i < |Select(store, fid, arts, chosen)| ==>
      var row := Select(store, fid, arts, chosen)[i];
      && row.friendId == fid && row.title != "" && row.link != ""
      && !Exists(store, fid, row.link)
      && row in RowsOf(fid, arts)
    decreases |arts|
  {
    SelectExtends(store, fid, arts, chosen);
    if |arts| > 0 {
      var a := arts[0];
      var committed := store + chosen[..|chosen| / BatchSize * BatchSize];
      assert RowsOf(fid, arts) == [RowOf(fid, a)] + RowsOf(fid, arts[1..]);
      if Storable(a) && !Exists(committed, fid, a.link) {
        ExistsAppend(store, chosen[..|chosen| / BatchSize * BatchSize], fid, a.link);
        SelectExtends(store, fid, arts[1..], chosen + [RowOf(fid, a)]);
        SelectSound(store, fid, arts[1..], chosen + [RowOf(fid, a)]);
        assert Select(store, fid, arts, chosen)[|chosen|] == RowOf(fid, a);
      } else {
        SelectSound(store, fid, arts[1..], chosen);
      }
    }
  }

  /** The storable articles whose link the store lacks, as rows, in order. */
  function FreshRows(store: seq<ArticleRow>, fid: FriendId, arts: seq<Article>): seq<ArticleRow>
    decreases |arts|
  {
    if |arts| == 0 then []
    else if Storable(arts[0]) && !Exists(store, fid, arts[0].link) then [RowOf(fid, arts[0])] + FreshRows(store, fid, arts[1..])
    else FreshRows(store, fid, arts[1..])
  }

  /** No two storable articles share a link. */
  ghost predicate DistinctLinks(arts: seq<Article>) {
    forall i, j :: 0 <= i < j < |arts| && Storable(arts[i]) && Storable(arts[j]) ==> arts[i].link != arts[j].link
  }

  lemma NotExistsSingleton(row: ArticleRow, fid: FriendId, link: string)
    requires row.link != link
    ensures !Exists([row], fid, link)
  {
  }

  lemma {:induction false} SelectDistinct(store: seq<ArticleRow>, fid: FriendId, arts: seq<Article>, chosen: seq<ArticleRow>)
    requires DistinctLinks(arts)
    requires forall i :: 0 <= i < |arts| && Storable(arts[i]) ==> !Exists(chosen, fid, arts[i].link)
    ensures Select(store, fid, arts, chosen) == chosen + FreshRows(store, fid, arts)
    decreases |arts|
  {
    if |arts| > 0 {
      var a := arts[0];
      var prefix := chosen[..|chosen| / BatchSize * BatchSize];
      var committed := store + prefix;
      var rest := arts[1..];
      assert DistinctLinks(rest) by {
        forall i, j | 0 <= i < j < |rest| && Storable(rest[i]) && Storable(rest[j])
          ensures rest[i].link != rest[j].link
        {
          assert rest[i] == arts[i + 1] && rest[j] == arts[j + 1];
        }
      }
      if Storable(a) {
        if Exists(prefix, fid, a.link) {
          ExistsPrefix(prefix, chosen, fid, a.link);
        }
        ExistsAppend(store, prefix, fid, a.link);
      }
      if Storable(a) && !Exists(committed, fid, a.link) {
        var chosen' := chosen + [RowOf(fid, a)];
        forall i | 0 <= i < |rest| && Storable(rest[i])
          ensures !Exists(chosen', fid, rest[i].link)
        {
          assert rest[i] == arts[i + 1];
          NotExistsSingleton(RowOf(fid, a), fid, rest[i].link);
          ExistsAppend(chosen, [RowOf(fid, a)], fid, rest[i].link);
        }
        SelectDistinct(store, fid, rest, chosen');
      } else {
        forall i | 0 <= i < |rest| && Storable(rest[i])
          ensures !Exists(chosen, fid, rest[i].link)
        {
          assert rest[i] == arts[i + 1];
        }
        SelectDistinct(store, fid, rest, chosen);
      }
    }
  }

  /** When the storable articles have pairwise distinct links, a call that
      raises nothing inserts exactly the storable articles whose link the
      source did not have, in input order. */
  lemma SaveDistinctLinks(store: seq<ArticleRow>, fid: FriendId, arts: seq<Article>, fault: FlushFault)
    requires DistinctLinks(arts)
    ensures SaveArticles(store, fid, arts, fault).error.None? ==>
      Concat(SaveArticles(store, fid, arts, fault).batches) == FreshRows(store, fid, arts)
  {
    SelectDistinct(store, fid, arts, []);
  }

  /** The existence check does not see rows still staged: the same link twice
      in one batch is stored twice. */
  lemma DuplicateLinkInOneBatchStoredTwice(store: seq<ArticleRow>, fid: FriendId, a: Article)
    requires Storable(a) && !Exists(store, fid, a.link)
    ensures SaveArticles(store, fid, [a, a], NoFlushFault)
         == SaveResult(store + [RowOf(fid, a), RowOf(fid, a)], [[RowOf(fid, a), RowOf(fid, a)]], None)
  {
    var row := RowOf(fid, a);
    assert [a, a][1..] == [a];
    assert [a][1..] == [];
    assert [] + [row] == [row];
    assert [row] + [row] == [row, row];
    assert SaveFrom(store, fid, [a, a], [], [], NoFlushFault) == SaveFrom(store, fid, [a], [row], [], NoFlushFault);
    assert SaveFrom(store, fid, [a], [row], [], NoFlushFault) == SaveFrom(store, fid, [], [row, row], [], NoFlushFault);
  }

  /** After a call, every storable article's link is present for the source. */
  lemma {:induction false} SelectCovers(store: seq<ArticleRow>, fid: FriendId, arts: seq<Article>, chosen: seq<ArticleRow>)
    ensures forall i :: 0 <= i < |arts| && Storable(arts[i]) ==>
      Exists(store + Select(store, fid, arts, chosen), fid, arts[i].link)
    decreases |arts|
  {
    if |arts| > 0 {
      var a := arts[0];
      var prefix := chosen[..|chosen| / BatchSize * BatchSize];
      var result := Select(store, fid, arts, chosen);
      if Storable(a) && !Exists(store + prefix, fid, a.link) {
        var chosen' := chosen + [RowOf(fid, a)];
        SelectExtends(store, fid, arts[1..], chosen');
        SelectCovers(store, fid, arts[1..], chosen');
        assert (store + result)[|store| + |chosen|] == RowOf(fid, a);
      } else {
        SelectExtends(store, fid, arts[1..], chosen);
        SelectCovers(store, fid, arts[1..], chosen);
        if Storable(a) {
          assert store + prefix <= store + result;
          ExistsPrefix(store + prefix, store + result, fid, a.link);
        }
      }
      forall i | 1 <= i < |arts| && Storable(arts[i])
        ensures Exists(store + result, fid, arts[i].link)
      {
        assert arts[i] == arts[1..][i - 1];
      }
    }
  }

  lemma {:induction false} SaveNothingNew(store: seq<ArticleRow>, fid: FriendId, arts: seq<Article>, fault: FlushFault)
    requires forall i :: 0 <= i < |arts| && Storable(arts[i]) ==> Exists(store, fid, arts[i].link)
    ensures SaveFrom(store, fid, arts, [], [], fault) == SaveResult(store, [], None)
    decreases |arts|
  {
    if |arts| > 0 {
      assert forall i :: 0 <= i < |arts[1..]| ==> arts[1..][i] == arts[i + 1];
      SaveNothingNew(store, fid, arts[1..], fault);
    }
  }

  /** Saving the same list again after a call that raised nothing inserts
      nothing and commits no batch. */
  lemma SaveTwiceInsertsNothing(store: seq<ArticleRow>, fid: FriendId, arts: seq<Article>, fault1: FlushFault, fault2: FlushFault)
    requires SaveArticles(store, fid, arts, fault1).error.None?
    ensures var first := SaveArticles(store, fid, arts, fault1);
      SaveArticles(first.store, fid, arts, fault2) == SaveResult(first.store, [], None)
  {
    var first := SaveArticles(store, fid, arts, fault1);
    SelectCovers(store, fid, arts, []);
    SaveNothingNew(first.store, fid, arts, fault2);
  }
}

=== FILE: feeds.dfy ===
/** `fetch_rss_articles`: classification of a parsed feed by its version
    string, resolution of each entry's publication time, and the mapping of
    entries to article records. The parser itself is not modelled: its output
    is the input here. */
module Feeds {
  import opened Wrappers
  import opened Text
  import opened Calendar

  datatype FeedType = Rss | Atom | UnknownType

  /** The time attributes the resolver knows; `f` stands for both the raw
      attribute `f` and the parsed attribute `f_parsed`. */
  datatype TimeField = PubDate | Published | Updated | Created | Modified

  /** One parsed entry. `parsed[f]` holds the components of `f_parsed`: a
      missing key is a missing attribute, and a None or empty tuple is the
      empty sequence (all three are falsy). `raw[f]` is `entry.get(f, '')`
      for a present key. */
  datatype Entry = Entry(
    title: Option<string>,
    link: Option<string>,
    parsed: map<TimeField, seq<int>>,
    raw: map<TimeField, string>)

  /** The parser's result: the feed's `version` attribute and its entries. */
  datatype Feed = Feed(version: Option<string>, entries: seq<Entry>)

  /** The record built for one entry. */
  datatype Article = Article(title: string, link: string, createdAt: Option<DateTime>)

  /** The version is lower-cased and searched for "rss" first, then "atom". */
  function Classify(version: Option<string>): (r: FeedType)
    ensures r == Rss <==> version.Some? && Occurs(ToLower(version.value), "rss")
    ensures r == Atom <==>
      version.Some? && !Occurs(ToLower(version.value), "rss") && Occurs(ToLower(version.value), "atom")
  {
    match version
    case None => UnknownType
    case Some(v) =>
      var lower := ToLower(v);
      HasInfixOccurs(lower, "rss");
      HasInfixOccurs(lower, "atom");
      if HasInfix(lower, "rss") then Rss
      else if HasInfix(lower, "atom") then Atom
      else UnknownType
  }

  /** The priority table of time fields for each feed type, shared by the
      parsed-tuple loop and the raw-text fallback. No field is listed twice,
      every table tries published, an RSS feed never reads updated, created
      or modified, and an Atom feed never reads pubDate. */
  function Candidates(t: FeedType): (r: seq<TimeField>)
    ensures forall i, j :: 0 <= i < j < |r| ==> r[i] != r[j]
    ensures Published in r
    ensures t == Rss ==> Updated !in r && Created !in r && Modified !in r
    ensures t == Atom ==> PubDate !in r
  {
    match t
    case Rss => [PubDate, Published]
    case Atom => [Updated, Published, Created, Modified]
    case UnknownType => [Published, Updated, PubDate, Created, Modified]
  }

  /** A feed of unknown type tries every time field. */
  lemma UnknownTriesEveryField(f: TimeField)
    ensures f in Candidates(UnknownType)
  {
  }

  /** `hasattr(entry, f_parsed) and getattr(entry, f_parsed)`. */
  predicate HasParsed(e: Entry, f: TimeField) {
    f in e.parsed && |e.parsed[f]| > 0
  }

  /** `entry.get(f, '')` is non-empty. */
  predicate HasRawText(e: Entry, f: TimeField) {
    f in e.raw && e.raw[f] != ""
  }

  /** What one candidate yields: the date-time built from its parsed tuple, or
      None when the tuple is absent, empty, or the construction raises. */
  function TryField(e: Entry, f: TimeField): Option<DateTime> {
    if HasParsed(e, f) then FromParts(e.parsed[f]) else None
  }

  /** The first loop over the candidates: stop at the first one that yields. */
  function FirstPass(e: Entry, fields: seq<TimeField>): Option<DateTime>
    decreases |fields|
  {
    if |fields| == 0 then None
    else match TryField(e, fields[0])
      case Some(d) => Some(d)
      case None => FirstPass(e, fields[1..])
  }

  /** The fallback loop: a field is tried only if its raw text is non-empty,
      and then the same parsed tuple is read again. */
  function RawPass(e: Entry, fields: seq<TimeField>): Option<DateTime>
    decreases |fields|
  {
    if |fields| == 0 then None
    else
      var f := fields[0];
      if HasRawText(e, f) && HasParsed(e, f) then
        match FromParts(e.parsed[f])
        case Some(d) => Some(d)
        case None => RawPass(e, fields[1..])
      else RawPass(e, fields[1..])
  }

  /** Candidate `i` is the first in `fields` that yields a date-time. */
  predicate FirstHit(e: Entry, fields: seq<TimeField>, i: int) {
    && 0 <= i < |fields|
    && TryField(e, fields[i]).Some?
    && forall j :: 0 <= j < i ==> TryField(e, fields[j]).None?
  }

  lemma {:induction false} FirstPassNone(e: Entry, fields: seq<TimeField>)
    ensures FirstPass(e, fields).None? <==> forall i :: 0 <= i < |fields| ==> TryField(e, fields[i]).None?
    decreases |fields|
  {
    if |fields| > 0 {
      FirstPassNone(e, fields[1..]);
      assert forall i :: 1 <= i < |fields| ==> fields[i] == fields[1..][i - 1];
    }
  }

  lemma {:induction false} FirstPassPicksFirstHit(e: Entry, fields: seq<TimeField>, i: int)
    requires FirstHit(e, fields, i)
    ensures FirstPass(e, fields) == TryField(e, fields[i])
    decreases i
  {
    if i > 0 {
      assert TryField(e, fields[0]).None?;
      assert FirstHit(e, fields[1..], i - 1) by {
        forall j | 0 <= j < i - 1
          ensures TryField(e, fields[1..][j]).None?
        {
          assert fields[1..][j] == fields[j + 1];
        }
      }
      FirstPassPicksFirstHit(e, fields[1..], i - 1);
    }
  }

  /** The fallback pass reads only the tuples the first pass already tried, so
      it cannot succeed where the first pass failed. */
  lemma {:induction false} RawPassNeverRescues(e: Entry, fields: seq<TimeField>)
    requires FirstPass(e, fields).None?
    ensures RawPass(e, fields).None?
    decreases |fields|
  {
    if |fields| > 0 {
      RawPassNeverRescues(e, fields[1..]);
    }
  }

  /** Publication time of an entry under feed type `t`. */
  function ResolveTime(e: Entry, t: FeedType): (r: Option<DateTime>)
    ensures r.None? <==> forall i :: 0 <= i < |Candidates(t)| ==> TryField(e, Candidates(t)[i]).None?
    ensures forall i :: FirstHit(e, Candidates(t), i) ==> r == TryField(e, Candidates(t)[i])
  {
    var first := FirstPass(e, Candidates(t));
    FirstPassNone(e, Candidates(t));
    if first.Some? then
      assert forall i :: FirstHit(e, Candidates(t), i) ==> first == TryField(e, Candidates(t)[i]) by {
        forall i | FirstHit(e, Candidates(t), i)
          ensures first == TryField(e, Candidates(t)[i])
        {
          FirstPassPicksFirstHit(e, Candidates(t), i);
        }
      }
      first
    else
      RawPassNeverRescues(e, Candidates(t));
      RawPass(e, Candidates(t))
  }

  /** Agreement of two entries on every candidate field yields the same
      result: fields outside the feed type's table are never read. */
  lemma {:induction false} FirstPassReadsOnly(e1: Entry, e2: Entry, fields: seq<TimeField>)
    requires forall i :: 0 <= i < |fields| ==> TryField(e1, fields[i]) == TryField(e2, fields[i])
    ensures FirstPass(e1, fields) == FirstPass(e2, fields)
    decreases |fields|
  {
    if |fields| > 0 {
      assert TryField(e1, fields[0]) == TryField(e2, fields[0]);
      assert forall i :: 0 <= i < |fields[1..]| ==> fields[1..][i] == fields[i + 1];
      FirstPassReadsOnly(e1, e2, fields[1..]);
    }
  }

  lemma ResolveReadsOnlyCandidates(e1: Entry, e2: Entry, t: FeedType)
    requires forall f :: f in Candidates(t) ==> TryField(e1, f) == TryField(e2, f)
    ensures ResolveTime(e1, t) == ResolveTime(e2, t)
  {
    FirstPassReadsOnly(e1, e2, Candidates(t));
    ResolveIsFirstPass(e1, t);
    ResolveIsFirstPass(e2, t);
  }

  /** With the fallback pass unable to add anything, resolution is the first pass alone. */
  lemma ResolveIsFirstPass(e: Entry, t: FeedType)
    ensures ResolveTime(e, t) == FirstPass(e, Candidates(t))
  {
    if FirstPass(e, Candidates(t)).None? {
      RawPassNeverRescues(e, Candidates(t));
    }
  }

  /** In an RSS feed a usable pubDate wins over any published value. */
  lemma RssPubDateWins(e: Entry)
    requires TryField(e, PubDate).Some?
    ensures ResolveTime(e, Rss) == TryField(e, PubDate)
  {
    assert FirstHit(e, Candidates(Rss), 0);
  }

  /** A pubDate tuple that does not form a date-time (here: month 13) is
      skipped and the published value is used. */
  lemma RssSkipsInvalidPubDate(e: Entry, d: DateTime)
    requires PubDate in e.parsed && e.parsed[PubDate] == [2024, 13, 1, 0, 0, 0]
    requires TryField(e, Published) == Some(d)
    ensures ResolveTime(e, Rss) == Some(d)
  {
    assert TryField(e, PubDate).None?;
    assert FirstHit(e, Candidates(Rss), 1);
  }

  /** In an Atom feed `updated` comes first; in a feed of unknown type `published` does. */
  lemma AtomPrefersUpdatedUnknownPrefersPublished(e: Entry)
    ensures TryField(e, Updated).Some? ==> ResolveTime(e, Atom) == TryField(e, Updated)
    ensures TryField(e, Published).Some? ==> ResolveTime(e, UnknownType) == TryField(e, Published)
  {
    if TryField(e, Updated).Some? {
      assert FirstHit(e, Candidates(Atom), 0);
    }
    if TryField(e, Published).Some? {
      assert FirstHit(e, Candidates(UnknownType), 0);
    }
  }

  function ArticleOf(e: Entry, t: FeedType): Article {
    Article(e.title.GetOr(""), e.link.GetOr(""), ResolveTime(e, t))
  }

  function ArticlesOf(entries: seq<Entry>, t: FeedType): (r: seq<Article>)
    ensures |r| == |entries|
    ensures forall i :: 0 <= i < |entries| ==> r[i] == ArticleOf(entries[i], t)
    decreases |entries|
  {
    if |entries| == 0 then [] else [ArticleOf(entries[0], t)] + ArticlesOf(entries[1..], t)
  }

  /** One article per entry, in entry order; title and link default to the
      empty string and are not filtered here. */
  function FetchArticles(feed: Feed): (r: seq<Article>)
    ensures |r| == |feed.entries|
    ensures forall i :: 0 <= i < |r| ==>
      && r[i].title == (if feed.entries[i].title.Some? then feed.entries[i].title.value else "")
      && r[i].link == (if feed.entries[i].link.Some? then feed.entries[i].link.value else "")
      && r[i].createdAt == ResolveTime(feed.entries[i], Classify(feed.version))
  {
    ArticlesOf(feed.entries, Classify(feed.version))
  }

  /** Concrete version strings the parser reports. */
  lemma ClassifyExamples()
    ensures Classify(Some("rss20")) == Rss
    ensures Classify(Some("RSS-ATOM")) == Rss
    ensures Classify(Some("")) == UnknownType
    ensures Classify(None) == UnknownType
  {
    assert OccursAt(ToLower("rss20"), "rss", 0);
    assert OccursAt(ToLower("RSS-ATOM"), "rss", 0);
  }

  /** An Atom version string has no "rss" in it and is classified as Atom. */
  lemma ClassifyAtomExample()
    ensures Classify(Some("atom10")) == Atom
  {
    var lower := ToLower("atom10");
    assert lower == "atom10";
    assert OccursAt(lower, "atom", 0);
    assert 'r' !in lower;
    OccursFirstChar(lower, "rss");
  }
}

=== FILE: health.dfy ===
/** The failure counter of friend_links: reset on a successful fetch,
    incremented after the run for every source that failed or found nothing,
    and the source switched off once the counter reaches 3. */
module Health {
  import opened Wrappers
  import opened Schema

  const FailureThreshold: nat := 3

  /** `COALESCE(fetch_failed_count, 0)`. */
  function Coalesce(count: Option<nat>): nat {
    count.GetOr(0)
  }

  /** `reset_fetch_failed_count`: the counter of every row with this id
      becomes 0; nothing else changes. */
  function ResetFailedCount(links: seq<FriendLink>, id: FriendId): (r: seq<FriendLink>)
    ensures |r| == |links|
    ensures forall i :: 0 <= i < |links| ==>
      && r[i].id == links[i].id && r[i].rssUrl == links[i].rssUrl && r[i].active == links[i].active
      && r[i].failCount == (if links[i].id == id then Some(0) else links[i].failCount)
    decreases |links|
  {
    if |links| == 0 then []
    else [if links[0].id == id then links[0].(failCount := Some(0)) else links[0]] + ResetFailedCount(links[1..], id)
  }

  /** `update_fetch_failed_count`: the row's counter becomes `count`, and when
      `count` reaches the threshold the row is deactivated in the same update. */
  function UpdateFailedCount(links: seq<FriendLink>, id: FriendId, count: nat): (r: seq<FriendLink>)
    ensures |r| == |links|
    ensures forall i :: 0 <= i < |links| ==> r[i].id == links[i].id && r[i].rssUrl == links[i].rssUrl
    ensures forall i :: 0 <= i < |links| && links[i].id == id ==>
      r[i].failCount == Some(count) && (r[i].active <==> links[i].active && count < FailureThreshold)
    ensures forall i :: 0 <= i < |links| && links[i].id != id ==> r[i] == links[i]
    decreases |links|
  {
    if |links| == 0 then []
    else
      var l := links[0];
      var l' := if l.id != id then l
        else if count >= FailureThreshold then l.(failCount := Some(count), active := false)
        else l.(failCount := Some(count));
      [l'] + UpdateFailedCount(links[1..], id, count)
  }

  /** The counter the post-run `SELECT COALESCE(...)` reads: that of the first row with the id. */
  function StoredCount(links: seq<FriendLink>, id: FriendId): nat
    decreases |links|
  {
    if |links| == 0 then 0
    else if links[0].id == id then Coalesce(links[0].failCount)
    else StoredCount(links[1..], id)
  }

  /** A row after one failed run: counter incremented from its COALESCEd
      value, deactivated when the new value reaches the threshold. */
  function Bumped(l: FriendLink): FriendLink {
    var n := Coalesce(l.failCount) + 1;
    if n >= FailureThreshold then l.(failCount := Some(n), active := false)
    else l.(failCount := Some(n))
  }

  ghost predicate SameIds(a: seq<FriendLink>, b: seq<FriendLink>) {
    |a| == |b| && forall i :: 0 <= i < |a| ==> a[i].id == b[i].id
  }

  lemma SameIdsKeepRows(a: seq<FriendLink>, b: seq<FriendLink>)
    requires SameIds(a, b)
    ensures forall id :: HasRow(a, id) ==> HasRow(b, id)
    ensures UniqueIds(a) ==> UniqueIds(b)
  {
    forall id | HasRow(a, id)
      ensures HasRow(b, id)
    {
      var i :| 0 <= i < |a| && a[i].id == id;
      assert b[i].id == id;
    }
  }

  /** Rows with the same ids still have a row for every id after the first. */
  lemma AllHaveRowsStep(links: seq<FriendLink>, links': seq<FriendLink>, failed: seq<FriendId>)
    requires |failed| > 0 && AllHaveRows(links, failed) && SameIds(links, links')
    ensures AllHaveRows(links', failed[1..])
  {
    SameIdsKeepRows(links, links');
    forall j | 0 <= j < |failed| - 1
      ensures HasRow(links', failed[1..][j])
    {
      assert failed[1..][j] == failed[j + 1];
    }
  }

  datatype Increments = Increments(links: seq<FriendLink>, deactivated: seq<FriendId>)

  /** The post-run loop over `failed_links`: read the counter, add one, write
      it back, and list the sources this deactivates. A missing row would make
      the source raise, so every id must have one. */
  function ApplyIncrements(links: seq<FriendLink>, failed: seq<FriendId>): (r: Increments)
    requires AllHaveRows(links, failed)
    ensures SameIds(links, r.links)
    decreases |failed|
  {
    if |failed| == 0 then Increments(links, [])
    else
      var id := failed[0];
      var n := StoredCount(links, id) + 1;
      var links' := UpdateFailedCount(links, id, n);
      AllHaveRowsStep(links, links', failed);
      var rest := ApplyIncrements(links', failed[1..]);
      Increments(rest.links, if n >= FailureThreshold then [id] + rest.deactivated else rest.deactivated)
  }

  /** The ids of `failed` whose counter reaches the threshold, in order. */
  function Deactivations(links: seq<FriendLink>, failed: seq<FriendId>): seq<FriendId>
    decreases |failed|
  {
    if |failed| == 0 then []
    else if StoredCount(links, failed[0]) + 1 >= FailureThreshold then [failed[0]] + Deactivations(links, failed[1..])
    else Deactivations(links, failed[1..])
  }

  lemma {:induction false} StoredCountAt(links: seq<FriendLink>, i: int)
    requires UniqueIds(links) && 0 <= i < |links|
    ensures StoredCount(links, links[i].id) == Coalesce(links[i].failCount)
    decreases i
  {
    if i > 0 {
      assert links[0].id != links[i].id;
      assert links[1..][i - 1] == links[i];
      StoredCountAt(links[1..], i - 1);
    }
  }

  lemma {:induction false} DeactivationsFrame(a: seq<FriendLink>, b: seq<FriendLink>, failed: seq<FriendId>)
    requires forall j :: 0 <= j < |failed| ==> StoredCount(a, failed[j]) == StoredCount(b, failed[j])
    ensures Deactivations(a, failed) == Deactivations(b, failed)
    decreases |failed|
  {
    if |failed| > 0 {
      assert forall j :: 0 <= j < |failed[1..]| ==> failed[1..][j] == failed[j + 1];
      DeactivationsFrame(a, b, failed[1..]);
    }
  }

  lemma NoDuplicatesTail(failed: seq<FriendId>)
    requires |failed| > 0 && NoDuplicates(failed)
    ensures NoDuplicates(failed[1..])
    ensures failed[0] !in failed[1..]
  {
    var rest := failed[1..];
    forall i, j | 0 <= i < j < |rest|
      ensures rest[i] != rest[j]
    {
      assert rest[i] == failed[i + 1] && rest[j] == failed[j + 1];
    }
    forall j | 0 <= j < |rest|
      ensures rest[j] != failed[0]
    {
      assert rest[j] == failed[j + 1];
    }
  }

  /** One increment bumps the row with that id and leaves the others alone. */
  lemma BumpRow(links: seq<FriendLink>, id: FriendId, i: int)
    requires UniqueIds(links) && 0 <= i < |links|
    ensures UpdateFailedCount(links, id, StoredCount(links, id) + 1)[i]
         == if links[i].id == id then Bumped(links[i]) else links[i]
  {
    if links[i].id == id {
      StoredCountAt(links, i);
    }
  }

  /** The facts the rest of the post-run loop needs after one turn. */
  lemma IncrementStepPre(links: seq<FriendLink>, failed: seq<FriendId>)
    requires UniqueIds(links) && NoDuplicates(failed) && AllHaveRows(links, failed) && |failed| > 0
    ensures var links' := UpdateFailedCount(links, failed[0], StoredCount(links, failed[0]) + 1);
      && UniqueIds(links') && NoDuplicates(failed[1..]) && AllHaveRows(links', failed[1..])
      && failed[0] !in failed[1..]
  {
    var links' := UpdateFailedCount(links, failed[0], StoredCount(links, failed[0]) + 1);
    SameIdsKeepRows(links, links');
    NoDuplicatesTail(failed);
    AllHaveRowsStep(links, links', failed);
  }

  /** One turn of the post-run loop: the result is that of the rest of the
      loop on the rows after the first increment. */
  lemma IncrementStep(links: seq<FriendLink>, failed: seq<FriendId>)
    requires AllHaveRows(links, failed) && |failed| > 0
    ensures var n := StoredCount(links, failed[0]) + 1;
      var links' := UpdateFailedCount(links, failed[0], n);
      && AllHaveRows(links', failed[1..])
      && ApplyIncrements(links, failed).links == ApplyIncrements(links', failed[1..]).links
      && ApplyIncrements(links, failed).deactivated
         == (if n >= FailureThreshold then [failed[0]] else []) + ApplyIncrements(links', failed[1..]).deactivated
  {
    AllHaveRowsStep(links, UpdateFailedCount(links, failed[0], StoredCount(links, failed[0]) + 1), failed);
  }

  lemma MemberHeadOrTail(xs: seq<FriendId>, x: FriendId)
    requires |xs| > 0
    ensures x in xs <==> x == xs[0] || x in xs[1..]
  {
    assert xs == [xs[0]] + xs[1..];
  }

  /** Row `i` after the whole loop, from row `i` after the rest of it. */
  lemma EffectRow(l: FriendLink, l': FriendLink, id: FriendId, rest: seq<FriendId>, row: FriendLink)
    requires id !in rest
    requires l' == if l.id == id then Bumped(l) else l
    requires row == if l'.id in rest then Bumped(l') else l'
    ensures row == if l.id == id || l.id in rest then Bumped(l) else l
  {
  }

  /** `r` is `links` with exactly the rows whose id is in `ids` bumped once. */
  ghost predicate BumpedExactly(links: seq<FriendLink>, ids: seq<FriendId>, r: seq<FriendLink>) {
    |r| == |links| && forall i :: 0 <= i < |links| ==> r[i] == (if links[i].id in ids then Bumped(links[i]) else links[i])
  }

  /** The rows after one increment: the row with that id is bumped. */
  lemma BumpRows(links: seq<FriendLink>, id: FriendId)
    requires UniqueIds(links)
    ensures BumpedExactly(links, [id], UpdateFailedCount(links, id, StoredCount(links, id) + 1))
  {
    forall i | 0 <= i < |links| {
      BumpRow(links, id, i);
    }
  }

  /** The rows after the whole loop, from the rows after the rest of it. */
  lemma CombineRows(links: seq<FriendLink>, failed: seq<FriendId>, links': seq<FriendLink>, r: seq<FriendLink>)
    requires |failed| > 0 && failed[0] !in failed[1..]
    requires BumpedExactly(links, [failed[0]], links')
    requires BumpedExactly(links', failed[1..], r)
    ensures BumpedExactly(links, failed, r)
  {
    forall i | 0 <= i < |links|
      ensures r[i] == (if links[i].id in failed then Bumped(links[i]) else links[i])
    {
      MemberHeadOrTail(failed, links[i].id);
      EffectRow(links[i], links'[i], failed[0], failed[1..], r[i]);
    }
  }

  /** One turn of the post-run loop followed by the rest of it: the rows
      bumped by the rest, on top of the one bumped first, are the rows bumped
      by the whole list. */
  lemma EffectStep(links: seq<FriendLink>, failed: seq<FriendId>, r: seq<FriendLink>)
    requires UniqueIds(links) && NoDuplicates(failed) && |failed| > 0
    requires BumpedExactly(UpdateFailedCount(links, failed[0], StoredCount(links, failed[0]) + 1), failed[1..], r)
    ensures BumpedExactly(links, failed, r)
  {
    NoDuplicatesTail(failed);
    BumpRows(links, failed[0]);
    CombineRows(links, failed, UpdateFailedCount(links, failed[0], StoredCount(links, failed[0]) + 1), r);
  }

  /** Each listed source is incremented exactly once from its counter before
      the loop, and every other row is untouched. */
  lemma {:induction false} ApplyIncrementsEffect(links: seq<FriendLink>, failed: seq<FriendId>)
    requires UniqueIds(links)
    requires NoDuplicates(failed)
    requires AllHaveRows(links, failed)
    ensures BumpedExactly(links, failed, ApplyIncrements(links, failed).links)
    decreases |failed|
  {
    if |failed| > 0 {
      var links' := UpdateFailedCount(links, failed[0], StoredCount(links, failed[0]) + 1);
      IncrementStepPre(links, failed);
      ApplyIncrementsEffect(links', failed[1..]);
      EffectStep(links, failed, ApplyIncrements(links', failed[1..]).links);
    }
  }

  /** Incrementing one source leaves every other source's stored counter alone. */
  lemma StoredCountFrame(links: seq<FriendLink>, id: FriendId, n: nat, x: FriendId)
    requires UniqueIds(links) && HasRow(links, x) && x != id
    ensures StoredCount(UpdateFailedCount(links, id, n), x) == StoredCount(links, x)
  {
    var links' := UpdateFailedCount(links, id, n);
    SameIdsKeepRows(links, links');
    var k :| 0 <= k < |links| && links[k].id == x;
    StoredCountAt(links, k);
    StoredCountAt(links', k);
  }

  /** The deactivated list is exactly the listed sources whose new counter
      reaches 3, in the order they were listed. */
  lemma {:induction false} ApplyIncrementsDeactivates(links: seq<FriendLink>, failed: seq<FriendId>)
    requires UniqueIds(links)
    requires NoDuplicates(failed)
    requires AllHaveRows(links, failed)
    ensures ApplyIncrements(links, failed).deactivated == Deactivations(links, failed)
    decreases |failed|
  {
    if |failed| > 0 {
      IncrementStepPre(links, failed);
      IncrementStep(links, failed);
      var n := StoredCount(links, failed[0]) + 1;
      var links' := UpdateFailedCount(links, failed[0], n);
      var rest := failed[1..];
      ApplyIncrementsDeactivates(links', rest);
      forall j | 0 <= j < |rest|
        ensures StoredCount(links', rest[j]) == StoredCount(links, rest[j])
      {
        assert rest[j] == failed[j + 1];
        StoredCountFrame(links, failed[0], n, rest[j]);
      }
      DeactivationsFrame(links', links, rest);
    }
  }

  /** The counter values on either side of the threshold, for any row. */
  lemma BumpedAtBoundary(l: FriendLink)
    ensures l.failCount == Some(2) ==> Bumped(l).failCount == Some(3) && !Bumped(l).active
    ensures l.failCount == Some(1) ==> Bumped(l).failCount == Some(2) && Bumped(l).active == l.active
  {
  }

  /** The concrete instance of BumpedAtBoundary for an active row, whole rows
      compared, plus the NULL case: 2 becomes 3 and inactive, 1 becomes 2 and
      stays active, and a NULL counter counts as 0. */
  lemma BumpBoundary(id: FriendId, url: Option<string>)
    ensures Bumped(FriendLink(id, url, Some(2), true)) == FriendLink(id, url, Some(3), false)
    ensures Bumped(FriendLink(id, url, Some(1), true)) == FriendLink(id, url, Some(2), true)
    ensures Bumped(FriendLink(id, url, None, true)) == FriendLink(id, url, Some(1), true)
  {
    BumpedAtBoundary(FriendLink(id, url, Some(2), true));
    BumpedAtBoundary(FriendLink(id, url, Some(1), true));
  }
}

=== FILE: runs.dfy ===
/** `rss_fetch`: one run over the active sources. Each source is fetched and
    classified as success, zero articles or failure, with one log row per
    source; successes persist their new articles and reset the counter during
    the loop, while the counter increments wait until after the loop; the log
    rows are written in one batch at the end. */
module Runs {
  import opened Wrappers
  import opened Feeds
  import opened Schema
  import opened Dedup
  import opened Health

  /** One row of `get_friend_links`: (id, rss_url). */
  datatype Source = Source(id: FriendId, rssUrl: string)

  /** `rss_url IS NOT NULL AND rss_url != '' AND is_active = 1`. */
  predicate Eligible(l: FriendLink) {
    l.rssUrl.Some? && l.rssUrl.value != "" && l.active
  }

  function SourceOf(l: FriendLink): Source {
    Source(l.id, l.rssUrl.GetOr(""))
  }

  /** `s` is the source of some eligible row. */
  predicate SourceFrom(links: seq<FriendLink>, s: Source) {
    exists j :: 0 <= j < |links| && Eligible(links[j]) && s == SourceOf(links[j])
  }

  lemma SourceFromTail(links: seq<FriendLink>, s: Source)
    requires |links| > 0 && SourceFrom(links[1..], s)
    ensures SourceFrom(links, s)
  {
    var j :| 0 <= j < |links[1..]| && Eligible(links[1..][j]) && s == SourceOf(links[1..][j]);
    assert links[1..][j] == links[j + 1];
  }

  /** `get_friend_links`: the eligible rows, in table order. */
  function ActiveSources(links: seq<FriendLink>): (r: seq<Source>)
    ensures forall k :: 0 <= k < |r| ==> SourceFrom(links, r[k])
    ensures forall j :: 0 <= j < |links| && Eligible(links[j]) ==> SourceOf(links[j]) in r
    decreases |links|
  {
    if |links| == 0 then []
    else
      var tail := links[1..];
      var rest := ActiveSources(tail);
      assert forall k :: 0 <= k < |rest| ==> SourceFrom(links, rest[k]) by {
        forall k | 0 <= k < |rest| ensures SourceFrom(links, rest[k]) {
          SourceFromTail(links, rest[k]);
        }
      }
      assert forall j :: 1 <= j < |links| && Eligible(links[j]) ==> SourceOf(links[j]) in rest by {
        forall j | 1 <= j < |links| && Eligible(links[j])
          ensures SourceOf(links[j]) in rest
        {
          assert links[j] == tail[j - 1];
        }
      }
      if Eligible(links[0]) then
        var r := [SourceOf(links[0])] + rest;
        assert forall k :: 1 <= k < |r| ==> r[k] == rest[k - 1];
        assert SourceFrom(links, r[0]);
        r
      else rest
  }

  /** What the outside world does when source `s` is fetched: the parser's
      result (or the exception it raises), and the store failures met while
      saving its articles or resetting its counter. */
  datatype ParseResult = Parsed(feed: Feed) | ParseError(message: string)
  datatype SourceInput = SourceInput(parse: ParseResult, flushFault: FlushFault, resetFault: Option<string>)

  /** The per-source result. Success counts the articles fetched, new or not. */
  datatype Outcome = Success(fetched: nat) | ZeroArticles | Fail(message: string)

  datatype Step = Step(db: Db, outcome: Outcome)

  /** The body of the per-source `try`: any exception becomes Fail with its message. */
  function ProcessSource(db: Db, src: Source, input: SourceInput): (r: Step)
    ensures r.db.logs == db.logs
    ensures db.articles <= r.db.articles
    ensures input.parse.ParseError? ==> r == Step(db, Fail(input.parse.message))
    ensures r.outcome.ZeroArticles? <==> input.parse.Parsed? && |input.parse.feed.entries| == 0
    ensures r.outcome.ZeroArticles? ==> r.db == db
    ensures r.outcome.Success? ==> input.parse.Parsed? && r.outcome.fetched == |input.parse.feed.entries| > 0
    ensures r.outcome.Success? ==> r.db.links == ResetFailedCount(db.links, src.id)
    ensures !r.outcome.Success? ==> r.db.links == db.links
    ensures input.parse.Parsed? && |input.parse.feed.entries| > 0 ==>
      var saved := SaveArticles(db.articles, src.id, FetchArticles(input.parse.feed), input.flushFault);
      && r.db.articles == saved.store
      && (saved.error.Some? ==> r.outcome == Fail(saved.error.value))
      && (saved.error.None? && input.resetFault.Some? ==> r.outcome == Fail(input.resetFault.value))
      && (saved.error.None? && input.resetFault.None? ==> r.outcome == Success(|input.parse.feed.entries|))
  {
    match input.parse
    case ParseError(msg) => Step(db, Fail(msg))
    case Parsed(feed) =>
      var arts := FetchArticles(feed);
      if |arts| == 0 then Step(db, ZeroArticles)
      else
        var saved := SaveArticles(db.articles, src.id, arts, input.flushFault);
        var db1 := db.(articles := saved.store);
        if saved.error.Some? then Step(db1, Fail(saved.error.value))
        else if input.resetFault.Some? then Step(db1, Fail(input.resetFault.value))
        else Step(db1.(links := ResetFailedCount(db1.links, src.id)), Success(|arts|))
  }

  function StatusOf(o: Outcome): Status {
    match o
    case Success(_) => StatusSuccess
    case ZeroArticles => StatusZeroArticles
    case Fail(_) => StatusFail
  }

  function MessageOf(o: Outcome): Message {
    match o
    case Success(n) => FetchedArticles(n)
    case ZeroArticles => NoArticlesFound
    case Fail(m) => ErrorText(m)
  }

  /** The log row buffered for one source; http_status is never captured. */
  function LogFor(s: Source, o: Outcome): FetchLog {
    FetchLog(s.id, s.rssUrl, StatusOf(o), None, MessageOf(o))
  }

  function LogIds(logs: seq<FetchLog>): seq<FriendId>
    decreases |logs|
  {
    if |logs| == 0 then [] else [logs[0].friendId] + LogIds(logs[1..])
  }

  function SuccessIds(logs: seq<FetchLog>): seq<FriendId>
    decreases |logs|
  {
    if |logs| == 0 then []
    else if logs[0].status == StatusSuccess then [logs[0].friendId] + SuccessIds(logs[1..])
    else SuccessIds(logs[1..])
  }

  /** The sources logged as zero_articles or fail, in order. */
  function FailedIds(logs: seq<FetchLog>): seq<FriendId>
    decreases |logs|
  {
    if |logs| == 0 then []
    else if logs[0].status != StatusSuccess then [logs[0].friendId] + FailedIds(logs[1..])
    else FailedIds(logs[1..])
  }

  function ZeroSources(logs: seq<FetchLog>): seq<Source>
    decreases |logs|
  {
    if |logs| == 0 then []
    else if logs[0].status == StatusZeroArticles then [Source(logs[0].friendId, logs[0].rssUrl)] + ZeroSources(logs[1..])
    else ZeroSources(logs[1..])
  }

  function CountStatus(logs: seq<FetchLog>, st: Status): nat
    decreases |logs|
  {
    if |logs| == 0 then 0
    else (if logs[0].status == st then 1 else 0) + CountStatus(logs[1..], st)
  }

  /** The statistics and lists the loop accumulates. */
  datatype Tally = Tally(
    success: nat, failed: nat, zero: nat,
    failedLinks: seq<FriendId>, zeroLinks: seq<Source>, logs: seq<FetchLog>)

  /** Prepends one source's outcome to the tally of the sources after it. */
  function Record(s: Source, o: Outcome, t: Tally): Tally {
    var logs := [LogFor(s, o)] + t.logs;
    match o
    case Success(_) => t.(success := t.success + 1, logs := logs)
    case ZeroArticles =>
      t.(zero := t.zero + 1, zeroLinks := [s] + t.zeroLinks, failedLinks := [s.id] + t.failedLinks, logs := logs)
    case Fail(_) => t.(failed := t.failed + 1, failedLinks := [s.id] + t.failedLinks, logs := logs)
  }

  datatype Progress = Progress(db: Db, tally: Tally)

  /** The counts and lists of a tally agree with its log rows. */
  ghost predicate TallyMatchesLogs(t: Tally) {
    && t.success == CountStatus(t.logs, StatusSuccess)
    && t.zero == CountStatus(t.logs, StatusZeroArticles)
    && t.failed == CountStatus(t.logs, StatusFail)
    && t.success + t.failed + t.zero == |t.logs|
    && t.failedLinks == FailedIds(t.logs)
    && t.zeroLinks == ZeroSources(t.logs)
  }

  /** Recording one more source keeps the counts and lists in step with the log. */
  lemma RecordMatchesLogs(s: Source, o: Outcome, t: Tally)
    requires TallyMatchesLogs(t)
    ensures Record(s, o, t).logs == [LogFor(s, o)] + t.logs
    ensures TallyMatchesLogs(Record(s, o, t))
  {
    var logs := Record(s, o, t).logs;
    assert logs[1..] == t.logs;
  }

  /** The loop over the sources, each processed against the store the
      previous ones left. */
  function RunSources(db: Db, sources: seq<Source>, env: Source -> SourceInput): (r: Progress)
    ensures r.db.logs == db.logs
    ensures db.articles <= r.db.articles
    ensures SameIds(db.links, r.db.links)
    ensures |r.tally.logs| == |sources|
    ensures forall k :: 0 <= k < |sources| ==>
      && r.tally.logs[k].friendId == sources[k].id
      && r.tally.logs[k].rssUrl == sources[k].rssUrl
      && r.tally.logs[k].httpStatus.None?
    ensures r.tally.success == CountStatus(r.tally.logs, StatusSuccess)
    ensures r.tally.zero == CountStatus(r.tally.logs, StatusZeroArticles)
    ensures r.tally.failed == CountStatus(r.tally.logs, StatusFail)
    ensures r.tally.success + r.tally.failed + r.tally.zero == |sources|
    ensures r.tally.failedLinks == FailedIds(r.tally.logs)
    ensures r.tally.zeroLinks == ZeroSources(r.tally.logs)
    decreases |sources|
  {
    if |sources| == 0 then Progress(db, Tally(0, 0, 0, [], [], []))
    else
      var s := sources[0];
      var step := ProcessSource(db, s, env(s));
      var rest := RunSources(step.db, sources[1..], env);
      assert forall k :: 1 <= k < |sources| ==> sources[k] == sources[1..][k - 1];
      var t := Record(s, step.outcome, rest.tally);
      RecordMatchesLogs(s, step.outcome, rest.tally);
      Progress(rest.db, t)
  }

  /** `insert_fetch_logs_batch`: an empty buffer writes nothing; otherwise the
      rows are appended in order. */
  function InsertFetchLogsBatch(db: Db, logs: seq<FetchLog>): (r: Db)
    ensures r.logs == db.logs + logs
    ensures r.articles == db.articles && r.links == db.links
    ensures |logs| == 0 ==> r == db
  {
    if |logs| == 0 then db else db.(logs := db.logs + logs)
  }

  /** The end-of-run statistics. */
  datatype Summary = Summary(
    total: nat, success: nat, failed: nat, zero: nat,
    failedLinks: seq<FriendId>, zeroLinks: seq<Source>, deactivated: seq<FriendId>)

  datatype RunReport = RunReport(db: Db, summary: Summary)

  lemma {:induction false} LogIdsMembers(logs: seq<FetchLog>)
    ensures |LogIds(logs)| == |logs|
    ensures forall k :: 0 <= k < |logs| ==> LogIds(logs)[k] == logs[k].friendId
    ensures forall x :: x in SuccessIds(logs) ==> x in LogIds(logs)
    ensures forall x :: x in FailedIds(logs) ==> x in LogIds(logs)
    ensures forall x :: x in LogIds(logs) ==> x in SuccessIds(logs) || x in FailedIds(logs)
    decreases |logs|
  {
    if |logs| > 0 {
      LogIdsMembers(logs[1..]);
    }
  }

  lemma NoDuplicatesCons(x: FriendId, s: seq<FriendId>)
    ensures NoDuplicates([x] + s) <==> x !in s && NoDuplicates(s)
  {
    var t := [x] + s;
    if NoDuplicates(t) {
      forall i, j | 0 <= i < j < |s|
        ensures s[i] != s[j]
      {
        assert s[i] == t[i + 1] && s[j] == t[j + 1];
      }
      forall j | 0 <= j < |s|
        ensures s[j] != x
      {
        assert s[j] == t[j + 1] && t[0] == x;
      }
    }
    if x !in s && NoDuplicates(s) {
      forall i, j | 0 <= i < j < |t|
        ensures t[i] != t[j]
      {
        assert t[j] == s[j - 1];
        if i > 0 {
          assert t[i] == s[i - 1];
        }
      }
    }
  }

  /** With one log row per distinct source, no source is both a success and a
      failure, and no source is incremented twice. */
  lemma {:induction false} FailedIdsDistinct(logs: seq<FetchLog>)
    requires NoDuplicates(LogIds(logs))
    ensures NoDuplicates(FailedIds(logs))
    ensures forall x :: !(x in SuccessIds(logs) && x in FailedIds(logs))
    decreases |logs|
  {
    if |logs| > 0 {
      var rest := logs[1..];
      NoDuplicatesCons(logs[0].friendId, LogIds(rest));
      LogIdsMembers(rest);
      FailedIdsDistinct(rest);
      if logs[0].status != StatusSuccess {
        NoDuplicatesCons(logs[0].friendId, FailedIds(rest));
      }
    }
  }

  function SourceIds(sources: seq<Source>): seq<FriendId>
    decreases |sources|
  {
    if |sources| == 0 then [] else [sources[0].id] + SourceIds(sources[1..])
  }

  lemma {:induction false} SourceIdsMembers(sources: seq<Source>)
    ensures |SourceIds(sources)| == |sources|
    ensures forall k :: 0 <= k < |sources| ==> SourceIds(sources)[k] == sources[k].id
    decreases |sources|
  {
    if |sources| > 0 {
      SourceIdsMembers(sources[1..]);
    }
  }

  /** Distinct ids in the table give distinct sources. */
  lemma {:induction false} ActiveSourcesDistinct(links: seq<FriendLink>)
    requires UniqueIds(links)
    ensures NoDuplicates(SourceIds(ActiveSources(links)))
    decreases |links|
  {
    if |links| > 0 {
      var rest := links[1..];
      assert UniqueIds(rest) by {
        forall i, j | 0 <= i < j < |rest|
          ensures rest[i].id != rest[j].id
        {
          assert rest[i] == links[i + 1] && rest[j] == links[j + 1];
        }
      }
      ActiveSourcesDistinct(rest);
      if Eligible(links[0]) {
        var rs := ActiveSources(rest);
        SourceIdsMembers(rs);
        assert links[0].id !in SourceIds(rs) by {
          forall k | 0 <= k < |rs|
            ensures SourceIds(rs)[k] != links[0].id
          {
            var j :| 0 <= j < |rest| && Eligible(rest[j]) && rs[k] == SourceOf(rest[j]);
            assert rest[j] == links[j + 1];
          }
        }
        NoDuplicatesCons(links[0].id, SourceIds(rs));
      }
    }
  }

  /** Every source listed for an increment has a row in the table. */
  lemma SourceHasRow(links: seq<FriendLink>, k: int)
    requires 0 <= k < |ActiveSources(links)|
    ensures HasRow(links, ActiveSources(links)[k].id)
  {
    var i :| 0 <= i < |links| && Eligible(links[i]) && ActiveSources(links)[k] == SourceOf(links[i]);
  }

  lemma {:induction false} FailedIdLogged(logs: seq<FetchLog>, x: FriendId)
    requires x in FailedIds(logs)
    ensures exists k :: 0 <= k < |logs| && logs[k].friendId == x
    decreases |logs|
  {
    if logs[0].status != StatusSuccess && logs[0].friendId == x {
      assert logs[0].friendId == x;
    } else {
      FailedIdLogged(logs[1..], x);
      var k :| 0 <= k < |logs[1..]| && logs[1..][k].friendId == x;
      assert logs[k + 1].friendId == x;
    }
  }

  lemma FailedLinksHaveRows(
    links0: seq<FriendLink>, links: seq<FriendLink>, sources: seq<Source>, logs: seq<FetchLog>)
    requires SameIds(links0, links)
    requires sources == ActiveSources(links0)
    requires |logs| == |sources| && forall k :: 0 <= k < |sources| ==> logs[k].friendId == sources[k].id
    ensures AllHaveRows(links, FailedIds(logs))
  {
    SameIdsKeepRows(links0, links);
    forall j | 0 <= j < |FailedIds(logs)|
      ensures HasRow(links, FailedIds(logs)[j])
    {
      var x := FailedIds(logs)[j];
      FailedIdLogged(logs, x);
      var k :| 0 <= k < |logs| && logs[k].friendId == x;
      SourceHasRow(links0, k);
    }
  }

  /** `rss_fetch`. */
  function Run(db: Db, env: Source -> SourceInput): (r: RunReport)
    ensures r.summary.total == |ActiveSources(db.links)|
    ensures r.summary.success + r.summary.failed + r.summary.zero == r.summary.total
    ensures |r.db.logs| == |db.logs| + r.summary.total && r.db.logs[..|db.logs|] == db.logs
    ensures forall k :: 0 <= k < r.summary.total ==>
      && r.db.logs[|db.logs| + k].friendId == ActiveSources(db.links)[k].id
      && r.db.logs[|db.logs| + k].rssUrl == ActiveSources(db.links)[k].rssUrl
    ensures r.summary.success == CountStatus(r.db.logs[|db.logs|..], StatusSuccess)
    ensures r.summary.zero == CountStatus(r.db.logs[|db.logs|..], StatusZeroArticles)
    ensures r.summary.failed == CountStatus(r.db.logs[|db.logs|..], StatusFail)
    ensures r.summary.failedLinks == FailedIds(r.db.logs[|db.logs|..])
    ensures r.summary.zeroLinks == ZeroSources(r.db.logs[|db.logs|..])
    ensures db.articles <= r.db.articles
    ensures SameIds(db.links, r.db.links)
  {
    var sources := ActiveSources(db.links);
    var p := RunSources(db, sources, env);
    FailedLinksHaveRows(db.links, p.db.links, sources, p.tally.logs);
    var inc := ApplyIncrements(p.db.links, p.tally.failedLinks);
    var db' := InsertFetchLogsBatch(p.db.(links := inc.links), p.tally.logs);
    assert db'.logs == db.logs + p.tally.logs;
    assert db'.logs[|db.logs|..] == p.tally.logs;
    assert db'.logs[..|db.logs|] == db.logs;
    RunReport(db', Summary(|sources|, p.tally.success, p.tally.failed, p.tally.zero,
                           p.tally.failedLinks, p.tally.zeroLinks, inc.deactivated))
  }

  /** During the loop the only change to friend_links is the reset of each
      successful source's counter. */
  lemma {:induction false} RunSourcesLinks(db: Db, sources: seq<Source>, env: Source -> SourceInput)
    ensures var r := RunSources(db, sources, env);
      forall i :: 0 <= i < |db.links| ==>
        r.db.links[i] == (if db.links[i].id in SuccessIds(r.tally.logs) then db.links[i].(failCount := Some(0)) else db.links[i])
    decreases |sources|
  {
    if |sources| > 0 {
      var s := sources[0];
      var step := ProcessSource(db, s, env(s));
      var rest := RunSources(step.db, sources[1..], env);
      RunSourcesLinks(step.db, sources[1..], env);
      var r := RunSources(db, sources, env);
      assert r.db == rest.db;
      assert r.tally.logs == [LogFor(s, step.outcome)] + rest.tally.logs;
      assert r.tally.logs[1..] == rest.tally.logs;
    }
  }

  /** With distinct ids, a row is processed exactly when it is eligible. */
  lemma ProcessedIffEligible(links: seq<FriendLink>, i: int)
    requires UniqueIds(links) && 0 <= i < |links|
    ensures links[i].id in SourceIds(ActiveSources(links)) <==> Eligible(links[i])
  {
    var sources := ActiveSources(links);
    SourceIdsMembers(sources);
    if links[i].id in SourceIds(sources) {
      var k :| 0 <= k < |sources| && SourceIds(sources)[k] == links[i].id;
      var j :| 0 <= j < |links| && Eligible(links[j]) && sources[k] == SourceOf(links[j]);
      assert j == i;
    }
    if Eligible(links[i]) {
      assert SourceOf(links[i]) in sources;
      var k :| 0 <= k < |sources| && sources[k] == SourceOf(links[i]);
      assert SourceIds(sources)[k] == links[i].id;
    }
  }

  /** The ids in the run's log are those of the active sources, each once. */
  lemma RunLogIds(db: Db, env: Source -> SourceInput)
    requires UniqueIds(db.links)
    ensures var logs := RunSources(db, ActiveSources(db.links), env).tally.logs;
      && LogIds(logs) == SourceIds(ActiveSources(db.links))
      && NoDuplicates(FailedIds(logs))
      && forall x :: !(x in SuccessIds(logs) && x in FailedIds(logs))
  {
    var sources := ActiveSources(db.links);
    var logs := RunSources(db, sources, env).tally.logs;
    assert LogIds(logs) == SourceIds(sources) by {
      LogIdsMembers(logs);
      SourceIdsMembers(sources);
    }
    ActiveSourcesDistinct(db.links);
    FailedIdsDistinct(logs);
  }

  /** The state of every friend_links row after a run: rows that are not
      eligible are untouched, a successful source's counter is 0, and a source
      that failed or found nothing is incremented once (and deactivated at 3). */
  lemma RunLinksEffect(db: Db, env: Source -> SourceInput)
    requires UniqueIds(db.links)
    ensures var r := Run(db, env);
      var logs := r.db.logs[|db.logs|..];
      forall i :: 0 <= i < |db.links| ==>
        r.db.links[i] == (
          if !Eligible(db.links[i]) then db.links[i]
          else if db.links[i].id in SuccessIds(logs) then db.links[i].(failCount := Some(0))
          else Bumped(db.links[i]))
  {
    var sources := ActiveSources(db.links);
    var p := RunSources(db, sources, env);
    var logs := p.tally.logs;
    var failed := p.tally.failedLinks;
    RunLogIds(db, env);
    LogIdsMembers(logs);
    RunSourcesLinks(db, sources, env);
    SameIdsKeepRows(db.links, p.db.links);
    FailedLinksHaveRows(db.links, p.db.links, sources, logs);
    ApplyIncrementsEffect(p.db.links, failed);
    var r := Run(db, env);
    assert r.db.links == ApplyIncrements(p.db.links, failed).links;
    assert r.db.logs[|db.logs|..] == logs;
    forall i | 0 <= i < |db.links|
      ensures r.db.links[i] == (
          if !Eligible(db.links[i]) then db.links[i]
          else if db.links[i].id in SuccessIds(logs) then db.links[i].(failCount := Some(0))
          else Bumped(db.links[i]))
    {
      ProcessedIffEligible(db.links, i);
      assert p.db.links[i].id == db.links[i].id;
    }
  }

  lemma StoredCountUnchanged(db: Db, sources: seq<Source>, env: Source -> SourceInput, p: Progress, x: FriendId)
    requires UniqueIds(db.links)
    requires p == RunSources(db, sources, env)
    requires HasRow(db.links, x) && x !in SuccessIds(p.tally.logs)
    ensures StoredCount(p.db.links, x) == StoredCount(db.links, x)
  {
    var k :| 0 <= k < |db.links| && db.links[k].id == x;
    RunSourcesLinks(db, sources, env);
    SameIdsKeepRows(db.links, p.db.links);
    assert p.db.links[k] == db.links[k];
    StoredCountAt(db.links, k);
    StoredCountAt(p.db.links, k);
  }

  /** The deactivated list is the failed sources whose counter before the run
      was 2 or more, in the order they were processed. */
  lemma RunDeactivations(db: Db, env: Source -> SourceInput)
    requires UniqueIds(db.links)
    ensures var r := Run(db, env);
      r.summary.deactivated == Deactivations(db.links, r.summary.failedLinks)
  {
    var sources := ActiveSources(db.links);
    var p := RunSources(db, sources, env);
    var logs := p.tally.logs;
    var failed := p.tally.failedLinks;
    RunLogIds(db, env);
    RunSourcesLinks(db, sources, env);
    SameIdsKeepRows(db.links, p.db.links);
    FailedLinksHaveRows(db.links, p.db.links, sources, logs);
    FailedLinksHaveRows(db.links, db.links, sources, logs);
    ApplyIncrementsDeactivates(p.db.links, failed);
    var r := Run(db, env);
    assert r.summary.deactivated == ApplyIncrements(p.db.links, failed).deactivated;
    assert r.summary.failedLinks == failed;
    assert failed == FailedIds(logs);
    forall j | 0 <= j < |failed|
      ensures StoredCount(p.db.links, failed[j]) == StoredCount(db.links, failed[j])
    {
      StoredCountUnchanged(db, sources, env, p, failed[j]);
    }
    DeactivationsFrame(p.db.links, db.links, failed);
  }

  /** Deactivation boundary over a whole run: an active source at 2 that
      fails or finds nothing ends at 3 and inactive and is reported; one at 1
      ends at 2 and still active. */
  lemma DeactivationBoundary(db: Db, env: Source -> SourceInput, i: int)
    requires UniqueIds(db.links) && 0 <= i < |db.links| && Eligible(db.links[i])
    requires db.links[i].id !in SuccessIds(Run(db, env).db.logs[|db.logs|..])
    ensures db.links[i].failCount == Some(2) ==>
      Run(db, env).db.links[i].failCount == Some(3) && !Run(db, env).db.links[i].active
    ensures db.links[i].failCount == Some(1) ==>
      Run(db, env).db.links[i].failCount == Some(2) && Run(db, env).db.links[i].active
  {
    RunRowBumped(db, env, i);
    BumpedAtBoundary(db.links[i]);
  }

  /** An eligible row whose source did not succeed is incremented once. */
  lemma RunRowBumped(db: Db, env: Source -> SourceInput, i: int)
    requires UniqueIds(db.links) && 0 <= i < |db.links| && Eligible(db.links[i])
    requires db.links[i].id !in SuccessIds(Run(db, env).db.logs[|db.logs|..])
    ensures Run(db, env).db.links[i] == Bumped(db.links[i])
  {
    RunLinksEffect(db, env);
  }

  /** The store the loop hands to source `k`: the store left by `sources[..k]`. */
  function StoreBefore(db: Db, sources: seq<Source>, env: Source -> SourceInput, k: nat): Db
    requires k <= |sources|
    decreases k
  {
    if k == 0 then db
    else StoreBefore(ProcessSource(db, sources[0], env(sources[0])).db, sources[1..], env, k - 1)
  }

  /** Source `k` processed against the store the earlier sources left. */
  function StepAt(db: Db, sources: seq<Source>, env: Source -> SourceInput, k: nat): Step
    requires k < |sources|
  {
    ProcessSource(StoreBefore(db, sources, env, k), sources[k], env(sources[k]))
  }

  /** The store after source `k` is the one its own step leaves. */
  lemma {:induction false} StoreBeforeStep(db: Db, sources: seq<Source>, env: Source -> SourceInput, k: nat)
    requires k < |sources|
    ensures StoreBefore(db, sources, env, k + 1) == StepAt(db, sources, env, k).db
    decreases k
  {
    if k > 0 {
      var db1 := ProcessSource(db, sources[0], env(sources[0])).db;
      StoreBeforeStep(db1, sources[1..], env, k - 1);
      assert sources[1..][k - 1] == sources[k];
    }
  }

  /** The loop's log row for source `k` records the outcome of processing it
      against the store the earlier sources left, and the loop ends with the
      store the last source leaves. */
  lemma {:induction false} RunSourcesTrace(db: Db, sources: seq<Source>, env: Source -> SourceInput)
    ensures var p := RunSources(db, sources, env);
      && p.db == StoreBefore(db, sources, env, |sources|)
      && forall k :: 0 <= k < |sources| ==> p.tally.logs[k] == LogFor(sources[k], StepAt(db, sources, env, k).outcome)
    decreases |sources|
  {
    if |sources| > 0 {
      var s := sources[0];
      var step := ProcessSource(db, s, env(s));
      var rest := sources[1..];
      RunSourcesTrace(step.db, rest, env);
      var p := RunSources(db, sources, env);
      var q := RunSources(step.db, rest, env);
      assert p.db == q.db;
      assert p.tally.logs == [LogFor(s, step.outcome)] + q.tally.logs;
      forall k | 1 <= k < |sources|
        ensures p.tally.logs[k] == LogFor(sources[k], StepAt(db, sources, env, k).outcome)
      {
        assert rest[k - 1] == sources[k];
        assert StepAt(db, sources, env, k) == StepAt(step.db, rest, env, k - 1);
      }
    }
  }

  /** What source `k`'s input alone decides about its log row: a parse
      exception is a failure with its message, an empty feed is
      zero_articles, a success had entries and reports their number, and a
      non-empty feed whose save and reset raise nothing is a success. */
  lemma RunSourcesStatuses(db: Db, sources: seq<Source>, env: Source -> SourceInput, k: nat)
    requires k < |sources|
    ensures var log := RunSources(db, sources, env).tally.logs[k];
      var input := env(sources[k]);
      && (input.parse.ParseError? ==> log.status == StatusFail && log.message == ErrorText(input.parse.message))
      && (input.parse.Parsed? && |input.parse.feed.entries| == 0 ==>
            log.status == StatusZeroArticles && log.message == NoArticlesFound)
      && (log.status == StatusSuccess ==>
            input.parse.Parsed? && |input.parse.feed.entries| > 0
            && log.message == FetchedArticles(|input.parse.feed.entries|))
      && (input.parse.Parsed? && |input.parse.feed.entries| > 0
            && input.flushFault == NoFlushFault && input.resetFault.None? ==>
            log.status == StatusSuccess && log.message == FetchedArticles(|input.parse.feed.entries|))
  {
    RunSourcesTrace(db, sources, env);
    var st := StepAt(db, sources, env, k);
  }

  /** The articles a source adds: a non-empty feed adds what `save_articles`
      commits against the store the earlier sources left; a parse exception
      or an empty feed adds nothing. */
  lemma RunSourcesArticlesStep(db: Db, sources: seq<Source>, env: Source -> SourceInput, k: nat)
    requires k < |sources|
    ensures var before := StoreBefore(db, sources, env, k).articles;
      var after := StoreBefore(db, sources, env, k + 1).articles;
      var input := env(sources[k]);
      after == if input.parse.Parsed? && |input.parse.feed.entries| > 0
               then SaveArticles(before, sources[k].id, FetchArticles(input.parse.feed), input.flushFault).store
               else before
  {
    StoreBeforeStep(db, sources, env, k);
  }

  /** The run's articles are the store the last source leaves. */
  lemma RunArticles(db: Db, env: Source -> SourceInput)
    ensures var sources := ActiveSources(db.links);
      Run(db, env).db.articles == StoreBefore(db, sources, env, |sources|).articles
  {
    RunUnfold(db, env);
    RunSourcesTrace(db, ActiveSources(db.links), env);
  }

  /** The run's log row for active source `k`, as its input decides it. */
  lemma RunStatuses(db: Db, env: Source -> SourceInput, k: nat)
    requires k < |ActiveSources(db.links)|
    ensures var log := Run(db, env).db.logs[|db.logs| + k];
      var input := env(ActiveSources(db.links)[k]);
      && (input.parse.ParseError? ==> log.status == StatusFail && log.message == ErrorText(input.parse.message))
      && (input.parse.Parsed? && |input.parse.feed.entries| == 0 ==>
            log.status == StatusZeroArticles && log.message == NoArticlesFound)
      && (log.status == StatusSuccess ==>
            input.parse.Parsed? && |input.parse.feed.entries| > 0
            && log.message == FetchedArticles(|input.parse.feed.entries|))
      && (input.parse.Parsed? && |input.parse.feed.entries| > 0
            && input.flushFault == NoFlushFault && input.resetFault.None? ==>
            log.status == StatusSuccess && log.message == FetchedArticles(|input.parse.feed.entries|))
  {
    var sources := ActiveSources(db.links);
    RunUnfold(db, env);
    RunSourcesStatuses(db, sources, env, k);
    assert Run(db, env).db.logs[|db.logs| + k] == RunSources(db, sources, env).tally.logs[k];
  }

  /** An id is among the successes exactly when some log row with that id says success. */
  lemma {:induction false} SuccessIdsWitness(logs: seq<FetchLog>, x: FriendId)
    ensures x in SuccessIds(logs) <==>
      exists k :: 0 <= k < |logs| && logs[k].friendId == x && logs[k].status == StatusSuccess
    decreases |logs|
  {
    if |logs| > 0 {
      var rest := logs[1..];
      SuccessIdsWitness(rest, x);
      if exists k :: 0 <= k < |rest| && rest[k].friendId == x && rest[k].status == StatusSuccess {
        var k :| 0 <= k < |rest| && rest[k].friendId == x && rest[k].status == StatusSuccess;
        assert logs[k + 1] == rest[k];
      }
      if exists k :: 0 <= k < |logs| && logs[k].friendId == x && logs[k].status == StatusSuccess {
        var k :| 0 <= k < |logs| && logs[k].friendId == x && logs[k].status == StatusSuccess;
        if k > 0 {
          assert rest[k - 1] == logs[k];
        }
      }
    }
  }

  /** With one log row per id, a row's id is among the successes exactly
      when that row says success. */
  lemma LoggedSuccess(logs: seq<FetchLog>, k: int)
    requires NoDuplicates(LogIds(logs)) && 0 <= k < |logs|
    ensures logs[k].friendId in SuccessIds(logs) <==> logs[k].status == StatusSuccess
  {
    var x := logs[k].friendId;
    SuccessIdsWitness(logs, x);
    if x in SuccessIds(logs) {
      var k' :| 0 <= k' < |logs| && logs[k'].friendId == x && logs[k'].status == StatusSuccess;
      assert k' == k by {
        assert |LogIds(logs)| == |logs| && LogIds(logs)[k] == x && LogIds(logs)[k'] == x by {
          LogIdsMembers(logs);
        }
      }
    }
  }

  /** An eligible row's state after a run, from its own input: a parse
      exception or an empty feed increments its counter (deactivating it at
      3), and a non-empty feed whose save and reset raise nothing resets it
      to 0. */
  lemma RunRowOutcome(db: Db, env: Source -> SourceInput, i: int)
    requires UniqueIds(db.links) && 0 <= i < |db.links| && Eligible(db.links[i])
    ensures var input := env(SourceOf(db.links[i]));
      var row := Run(db, env).db.links[i];
      && (input.parse.ParseError? || (input.parse.Parsed? && |input.parse.feed.entries| == 0) ==>
            row == Bumped(db.links[i]))
      && (input.parse.Parsed? && |input.parse.feed.entries| > 0
            && input.flushFault == NoFlushFault && input.resetFault.None? ==>
            row == db.links[i].(failCount := Some(0)))
  {
    var sources := ActiveSources(db.links);
    var logs := RunSources(db, sources, env).tally.logs;
    var k :| 0 <= k < |sources| && sources[k] == SourceOf(db.links[i]);
    RunSourcesStatuses(db, sources, env, k);
    assert NoDuplicates(LogIds(logs)) by {
      RunLogIds(db, env);
      ActiveSourcesDistinct(db.links);
    }
    LoggedSuccess(logs, k);
    RunLinkAt(db, env, i);
  }

  function ScenarioEntry(title: string, link: string): Entry {
    Entry(Some(title), Some(link), map[], map[])
  }

  function ScenarioFeed(): Feed {
    Feed(None, [ScenarioEntry("one", "https://a.example/1"),
                ScenarioEntry("two", "https://a.example/2"),
                ScenarioEntry("three", "https://a.example/3")])
  }

  function ScenarioDb(): Db {
    Db([], [FriendLink(1, Some("https://a.example/feed"), Some(0), true),
            FriendLink(2, Some("https://b.example/feed"), Some(0), true)], [])
  }

  function ScenarioEnv(s: Source): SourceInput {
    if s.id == 1 then SourceInput(Parsed(ScenarioFeed()), NoFlushFault, None)
    else SourceInput(ParseError("timed out"), NoFlushFault, None)
  }

  lemma ScenarioArticles()
    ensures FetchArticles(ScenarioFeed()) == [
      Article("one", "https://a.example/1", None),
      Article("two", "https://a.example/2", None),
      Article("three", "https://a.example/3", None)]
  {
    UndatedArticles(ScenarioFeed());
  }

  /** Entries that carry no parsed time tuple at all give undated articles. */
  lemma UndatedArticles(feed: Feed)
    requires forall i :: 0 <= i < |feed.entries| ==> feed.entries[i].parsed == map[]
    ensures forall i :: 0 <= i < |feed.entries| ==> FetchArticles(feed)[i].createdAt == None
  {
    forall i | 0 <= i < |feed.entries|
      ensures FetchArticles(feed)[i].createdAt == None
    {
      assert forall f :: !HasParsed(feed.entries[i], f);
    }
  }

  /** Three complete articles with distinct links saved into an empty store. */
  lemma SaveThree(a: Article, b: Article, c: Article, fid: FriendId)
    requires Storable(a) && Storable(b) && Storable(c)
    requires a.link != b.link && a.link != c.link && b.link != c.link
    ensures SaveArticles([], fid, [a, b, c], NoFlushFault).store == [RowOf(fid, a), RowOf(fid, b), RowOf(fid, c)]
    ensures SaveArticles([], fid, [a, b, c], NoFlushFault).error.None?
  {
    var ra, rb, rc := RowOf(fid, a), RowOf(fid, b), RowOf(fid, c);
    assert [a, b, c][1..] == [b, c];
    assert [b, c][1..] == [c];
    assert [c][1..] == [];
    assert [] + [ra] == [ra];
    assert [ra] + [rb] == [ra, rb];
    assert [ra, rb] + [rc] == [ra, rb, rc];
    assert !Exists([], fid, a.link) && !Exists([], fid, b.link) && !Exists([], fid, c.link);
    assert SaveFrom([], fid, [a, b, c], [], [], NoFlushFault) == SaveFrom([], fid, [b, c], [ra], [], NoFlushFault);
    assert SaveFrom([], fid, [b, c], [ra], [], NoFlushFault) == SaveFrom([], fid, [c], [ra, rb], [], NoFlushFault);
    assert SaveFrom([], fid, [c], [ra, rb], [], NoFlushFault) == SaveFrom([], fid, [], [ra, rb, rc], [], NoFlushFault);
  }

  /** Source A's three articles are stored, as three rows of source 1. */
  lemma ScenarioSave()
    ensures var saved := SaveArticles([], 1, FetchArticles(ScenarioFeed()), NoFlushFault);
      saved.error.None? && |saved.store| == 3 && forall k :: 0 <= k < 3 ==> saved.store[k].friendId == 1
  {
    ScenarioArticles();
    var a := Article("one", "https://a.example/1", None);
    var b := Article("two", "https://a.example/2", None);
    var c := Article("three", "https://a.example/3", None);
    assert a.link != b.link && a.link != c.link && b.link != c.link;
    SaveThree(a, b, c, 1);
  }

  /** The loop over two sources, unfolded. */
  lemma LoopOfTwo(db: Db, sa: Source, sb: Source, env: Source -> SourceInput)
    ensures var s1 := ProcessSource(db, sa, env(sa));
      var s2 := ProcessSource(s1.db, sb, env(sb));
      var p := RunSources(db, [sa, sb], env);
      p.db == s2.db && p.tally.logs == [LogFor(sa, s1.outcome), LogFor(sb, s2.outcome)]
  {
    var s1 := ProcessSource(db, sa, env(sa));
    var s2 := ProcessSource(s1.db, sb, env(sb));
    assert [sb][1..] == [];
    var p0 := RunSources(s2.db, [], env);
    assert p0 == Progress(s2.db, Tally(0, 0, 0, [], [], []));
    var p1 := RunSources(s1.db, [sb], env);
    assert p1.db == p0.db;
    assert p1.db == s2.db && p1.tally.logs == [LogFor(sb, s2.outcome)];
    assert [sa, sb][1..] == [sb];
  }

  /** A success row followed by a fail row. */
  lemma SuccessThenFail(l1: FetchLog, l2: FetchLog)
    requires l1.status == StatusSuccess && l2.status == StatusFail
    ensures SuccessIds([l1, l2]) == [l1.friendId]
    ensures CountStatus([l1, l2], StatusSuccess) == 1
    ensures CountStatus([l1, l2], StatusFail) == 1
    ensures CountStatus([l1, l2], StatusZeroArticles) == 0
  {
    assert [l1, l2][1..] == [l2];
    assert [l2][1..] == [];
    assert SuccessIds([l2]) == [];
    forall st: Status
      ensures CountStatus([l2], st) == if st == StatusFail then 1 else 0
    {
      assert CountStatus([l2][1..], st) == 0;
    }
    assert [l1.friendId] + [] == [l1.friendId];
  }

  /** The run's log rows and articles are those the loop produced. */
  lemma RunUnfold(db: Db, env: Source -> SourceInput)
    ensures var p := RunSources(db, ActiveSources(db.links), env);
      var r := Run(db, env);
      r.db.logs == db.logs + p.tally.logs && r.db.articles == p.db.articles
      && r.summary.success == p.tally.success && r.summary.failed == p.tally.failed
      && r.summary.zero == p.tally.zero
  {
  }

  /** One row's counter after the run, in terms of the loop's log. */
  lemma RunLinkAt(db: Db, env: Source -> SourceInput, i: int)
    requires UniqueIds(db.links) && 0 <= i < |db.links|
    ensures var logs := RunSources(db, ActiveSources(db.links), env).tally.logs;
      Run(db, env).db.links[i] == (
        if !Eligible(db.links[i]) then db.links[i]
        else if db.links[i].id in SuccessIds(logs) then db.links[i].(failCount := Some(0))
        else Bumped(db.links[i]))
  {
    RunUnfold(db, env);
    RunLinksEffect(db, env);
    var logs := RunSources(db, ActiveSources(db.links), env).tally.logs;
    assert Run(db, env).db.logs[|db.logs|..] == logs;
  }

  /** Two eligible rows give two sources, in table order. */
  lemma ActiveTwo(la: FriendLink, lb: FriendLink)
    requires Eligible(la) && Eligible(lb)
    ensures ActiveSources([la, lb]) == [SourceOf(la), SourceOf(lb)]
  {
    assert [la, lb][1..] == [lb];
    assert [lb][1..] == [];
    assert ActiveSources([lb]) == [SourceOf(lb)];
  }

  /** A flush fault on one of the batches a non-empty feed's new articles
      call for propagates out of `save_articles`, and the source fails with
      its message. */
  lemma FlushFaultFailsSource(db: Db, src: Source, input: SourceInput)
    requires input.parse.Parsed? && |input.parse.feed.entries| > 0
    requires input.flushFault.FlushFails?
    requires input.flushFault.batch
      < |Chunks(Select(db.articles, src.id, FetchArticles(input.parse.feed), []))|
    ensures ProcessSource(db, src, input).outcome == Fail(input.flushFault.message)
    ensures ProcessSource(db, src, input).db.links == db.links
  {
    FlushFaultRaises(db.articles, src.id, FetchArticles(input.parse.feed), input.flushFault);
  }

  /** The first source is saved without fault and succeeds. */
  lemma SavedSuccess(db: Db, sa: Source, input: SourceInput)
    requires input.parse.Parsed? && |input.parse.feed.entries| > 0
    requires input.flushFault == NoFlushFault && input.resetFault.None?
    ensures var st := ProcessSource(db, sa, input);
      && st.outcome == Success(|input.parse.feed.entries|)
      && st.db.articles == SaveArticles(db.articles, sa.id, FetchArticles(input.parse.feed), NoFlushFault).store
  {
    var saved := SaveArticles(db.articles, sa.id, FetchArticles(input.parse.feed), NoFlushFault);
    assert saved.error.None?;
  }

  /** The loop over a succeeding and a failing source. */
  lemma LoopSuccessFail(db: Db, sa: Source, sb: Source, env: Source -> SourceInput)
    requires var input := env(sa);
      && input.parse.Parsed? && |input.parse.feed.entries| > 0
      && input.flushFault == NoFlushFault && input.resetFault.None?
    requires env(sb).parse.ParseError?
    ensures var feed := env(sa).parse.feed;
      var p := RunSources(db, [sa, sb], env);
      && p.db.articles == SaveArticles(db.articles, sa.id, FetchArticles(feed), NoFlushFault).store
      && p.tally.logs == [LogFor(sa, Success(|feed.entries|)), LogFor(sb, Fail(env(sb).parse.message))]
  {
    SavedSuccess(db, sa, env(sa));
    LoopOfTwo(db, sa, sb, env);
  }

  /** A run over two eligible rows where the first source's feed has entries
      and is saved without fault, and the second source's fetch raises: the
      first source's articles are saved, two log rows are appended in table
      order, and the run counts one success and one failure. */
  lemma OneSuccessOneFailure(db: Db, env: Source -> SourceInput)
    requires |db.links| == 2
    requires Eligible(db.links[0]) && Eligible(db.links[1])
    requires var input := env(SourceOf(db.links[0]));
      && input.parse.Parsed? && |input.parse.feed.entries| > 0
      && input.flushFault == NoFlushFault && input.resetFault.None?
    requires env(SourceOf(db.links[1])).parse.ParseError?
    ensures var sa, sb := SourceOf(db.links[0]), SourceOf(db.links[1]);
      var feed := env(sa).parse.feed;
      var r := Run(db, env);
      && r.db.articles == SaveArticles(db.articles, sa.id, FetchArticles(feed), NoFlushFault).store
      && r.db.logs == db.logs + [LogFor(sa, Success(|feed.entries|)), LogFor(sb, Fail(env(sb).parse.message))]
      && r.summary.success == 1 && r.summary.failed == 1 && r.summary.zero == 0
  {
    var sa, sb := SourceOf(db.links[0]), SourceOf(db.links[1]);
    assert db.links == [db.links[0], db.links[1]];
    ActiveTwo(db.links[0], db.links[1]);
    LoopSuccessFail(db, sa, sb, env);
    var logs := RunSources(db, [sa, sb], env).tally.logs;
    SuccessThenFail(logs[0], logs[1]);
    RunUnfold(db, env);
  }

  /** In the same run the first counter is reset and the second is bumped. */
  lemma OneSuccessOneFailureLinks(db: Db, env: Source -> SourceInput, i: int)
    requires |db.links| == 2 && db.links[0].id != db.links[1].id
    requires Eligible(db.links[0]) && Eligible(db.links[1])
    requires var input := env(SourceOf(db.links[0]));
      && input.parse.Parsed? && |input.parse.feed.entries| > 0
      && input.flushFault == NoFlushFault && input.resetFault.None?
    requires env(SourceOf(db.links[1])).parse.ParseError?
    requires 0 <= i < 2
    ensures Run(db, env).db.links[i] == if i == 0 then db.links[0].(failCount := Some(0)) else Bumped(db.links[1])
  {
    assert UniqueIds(db.links);
    RunRowOutcome(db, env, i);
  }

  /** The scenario meets the hypotheses of OneSuccessOneFailure. */
  lemma ScenarioShape()
    ensures var db := ScenarioDb();
      && |db.links| == 2 && db.links[0].id != db.links[1].id
      && Eligible(db.links[0]) && Eligible(db.links[1])
      && SourceOf(db.links[0]) == Source(1, "https://a.example/feed")
      && SourceOf(db.links[1]) == Source(2, "https://b.example/feed")
  {
  }

  /** In the scenario, A's three rows are stored. */
  lemma ScenarioRunArticles()
    ensures var r := Run(ScenarioDb(), ScenarioEnv);
      |r.db.articles| == 3 && forall k :: 0 <= k < 3 ==> r.db.articles[k].friendId == 1
  {
    ScenarioShape();
    ScenarioSave();
    OneSuccessOneFailure(ScenarioDb(), ScenarioEnv);
  }

  /** In the scenario, A's counter stays 0 and B's becomes 1; both stay active. */
  lemma ScenarioRunLinks()
    ensures var r := Run(ScenarioDb(), ScenarioEnv);
      && r.db.links[0].failCount == Some(0) && r.db.links[0].active
      && r.db.links[1].failCount == Some(1) && r.db.links[1].active
  {
    ScenarioShape();
    OneSuccessOneFailureLinks(ScenarioDb(), ScenarioEnv, 0);
    OneSuccessOneFailureLinks(ScenarioDb(), ScenarioEnv, 1);
  }

  /** In the scenario, two log rows are written and the counts are 1, 1, 0. */
  lemma ScenarioRunLogs()
    ensures var r := Run(ScenarioDb(), ScenarioEnv);
      && r.db.logs == [
           FetchLog(1, "https://a.example/feed", StatusSuccess, None, FetchedArticles(3)),
           FetchLog(2, "https://b.example/feed", StatusFail, None, ErrorText("timed out"))]
      && r.summary.success == 1 && r.summary.failed == 1 && r.summary.zero == 0
  {
    ScenarioShape();
    OneSuccessOneFailure(ScenarioDb(), ScenarioEnv);
  }

  /** Two active sources: A yields three new articles, B's fetch raises. A's
      three rows are stored, B's counter goes from 0 to 1, two log rows are
      written, and the counts are 1 success, 1 failure, 0 empty. */
  lemma EndToEndScenario()
    ensures var r := Run(ScenarioDb(), ScenarioEnv);
      && |r.db.articles| == 3
      && (forall k :: 0 <= k < 3 ==> r.db.articles[k].friendId == 1)
      && r.db.links[0].failCount == Some(0) && r.db.links[0].active
      && r.db.links[1].failCount == Some(1) && r.db.links[1].active
      && r.db.logs == [
           FetchLog(1, "https://a.example/feed", StatusSuccess, None, FetchedArticles(3)),
           FetchLog(2, "https://b.example/feed", StatusFail, None, ErrorText("timed out"))]
      && r.summary.success == 1 && r.summary.failed == 1 && r.summary.zero == 0
  {
    ScenarioRunArticles();
    ScenarioRunLinks();
    ScenarioRunLogs();
  }
}

=== FILE: schema.dfy ===
/** The rows of the three tables the fetch job reads and writes, and the
    store as a whole: friend_links, friend_rss_articles and
    friend_rss_fetch_logs. */
module Schema {
  import opened Wrappers
  import opened Calendar

  /** Primary key of friend_links. */
  type FriendId = int

  /** A row of friend_links. `rssUrl` and `failCount` are nullable columns;
      `active` is the is_active flag (1 is true, 0 is false). */
  datatype FriendLink = FriendLink(id: FriendId, rssUrl: Option<string>, failCount: Option<nat>, active: bool)

  /** A row of friend_rss_articles; `createdAt` is NULL when no publication
      time could be resolved. */
  datatype ArticleRow = ArticleRow(friendId: FriendId, title: string, link: string, createdAt: Option<DateTime>)

  /** The `status` column of friend_rss_fetch_logs: 'success', 'zero_articles', 'fail'. */
  datatype Status = StatusSuccess | StatusZeroArticles | StatusFail

  /** The `message` column: the article count of a success, the fixed
      zero-articles text, or the text of the exception caught. */
  datatype Message = FetchedArticles(count: nat) | NoArticlesFound | ErrorText(text: string)

  /** A row of friend_rss_fetch_logs (`fetched_at` is a wall-clock value and is not modelled). */
  datatype FetchLog = FetchLog(friendId: FriendId, rssUrl: string, status: Status, httpStatus: Option<int>, message: Message)

  /** The store: the three tables, each in row order. */
  datatype Db = Db(articles: seq<ArticleRow>, links: seq<FriendLink>, logs: seq<FetchLog>)

  /** friend_links.id is a primary key. */
  ghost predicate UniqueIds(links: seq<FriendLink>) {
    forall i, j :: 0 <= i < j < |links| ==> links[i].id != links[j].id
  }

  predicate HasRow(links: seq<FriendLink>, id: FriendId) {
    exists i :: 0 <= i < |links| && links[i].id == id
  }

  /** Every listed id has a row. */
  predicate AllHaveRows(links: seq<FriendLink>, ids: seq<FriendId>) {
    forall j :: 0 <= j < |ids| ==> HasRow(links, ids[j])
  }

  ghost predicate NoDuplicates(ids: seq<FriendId>) {
    forall i, j :: 0 <= i < j < |ids| ==> ids[i] != ids[j]
  }
}

=== FILE: text.dfy ===
/** The two string operations the feed classifier uses: `str.lower()` and `sub in s`. */
module Text {

  /** Lower-cases one ASCII letter; every other character is left alone.
      Python lower-cases all of Unicode, but no character outside 'A'..'Z'
      lower-cases to one of the letters of "rss" or "atom", so the substring
      tests made on the result are the same. */
  function LowerChar(c: char): char {
    if 'A' <= c <= 'Z' then (c as int + 32) as char else c
  }

  function ToLower(s: string): (r: string)
    ensures |r| == |s|
    ensures forall i :: 0 <= i < |s| ==> r[i] == LowerChar(s[i])
  {
    if |s| == 0 then [] else [LowerChar(s[0])] + ToLower(s[1..])
  }

  /** `sub` occurs in `s` at some position: the meaning of Python's `sub in s`. */
  ghost predicate Occurs(s: string, sub: string) {
    exists i :: 0 <= i && OccursAt(s, sub, i)
  }

  predicate OccursAt(s: string, sub: string, i: nat) {
    i + |sub| <= |s| && s[i..i + |sub|] == sub
  }

  /** A left-to-right scan for `sub`, as the substring test is executed. */
  function HasInfix(s: string, sub: string): bool
    decreases |s|
  {
    if |sub| > |s| then false
    else s[..|sub|] == sub || HasInfix(s[1..], sub)
  }

  /** An occurrence in the tail is an occurrence one position further on. */
  lemma OccursInTail(s: string, sub: string, j: nat)
    requires |s| > 0 && OccursAt(s[1..], sub, j)
    ensures OccursAt(s, sub, j + 1)
  {
    assert s[j + 1..j + 1 + |sub|] == s[1..][j..j + |sub|];
  }

  /** An occurrence past the first position is an occurrence in the tail. */
  lemma OccursPastHead(s: string, sub: string, i: nat)
    requires i > 0 && OccursAt(s, sub, i)
    ensures OccursAt(s[1..], sub, i - 1)
  {
    assert s[1..][i - 1..i - 1 + |sub|] == s[i..i + |sub|];
  }

  lemma {:induction false} HasInfixOccurs(s: string, sub: string)
    ensures HasInfix(s, sub) <==> Occurs(s, sub)
    decreases |s|
  {
    if |sub| > |s| {
    } else if s[..|sub|] == sub {
      assert OccursAt(s, sub, 0);
    } else {
      HasInfixOccurs(s[1..], sub);
      if Occurs(s[1..], sub) {
        var j :| 0 <= j && OccursAt(s[1..], sub, j);
        OccursInTail(s, sub, j);
      }
      if Occurs(s, sub) {
        var i :| 0 <= i && OccursAt(s, sub, i);
        assert i != 0;
        OccursPastHead(s, sub, i);
      }
    }
  }

  /** A string that contains `sub` contains its first character. */
  lemma OccursFirstChar(s: string, sub: string)
    requires |sub| > 0
    ensures Occurs(s, sub) ==> sub[0] in s
  {
    if Occurs(s, sub) {
      var i :| 0 <= i && OccursAt(s, sub, i);
      assert s[i] == s[i..i + |sub|][0];
    }
  }
}

=== FILE: wrappers.dfy ===
/** Optional values, standing for Python's None and for nullable columns. */
module Wrappers {

  datatype Option<+T> = None | Some(value: T) {

    /** The wrapped value, or `default` when there is none (Python's `d.get(k, default)`). */
    function GetOr(default: T): T {
      match this
      case Some(v) => v
      case None => default
    }
  }
}
